=== FILE: README.md ===
# News Trends Explorer — a Dafny model of its core

News Trends Explorer is a small news dashboard. A FastAPI backend fetches
Google News feeds and returns trimmed article lists. A second backend module
adds keywords, one-line summaries, a word cloud (a base64 PNG data URL) and a
keyword bar chart. A Streamlit front end calls the API by building a URL with
a query string.

This project models the logic of that core as pure Dafny functions and proves
its properties. The modules are:

- `Summary` (summary.dfy) models `generate_summary`. Its tag stripping follows
  Python's lazy `<.*?>` substitution, where `.` does not match a newline. Its
  first-sentence split follows `re.split(r'(?<=[.!?]) +', …)[0]`. A
  loop-based scanner is proved equal to the recursive definition.
- `Base64` (base64.dfy) models the base64 encoding of section 4 of RFC 4648,
  with `=` padding, and the `data:image/png;base64,` URL built from it. A
  decoder proves that the encoding loses nothing.
- `Strings` (strings.dfy) models Python's `sep.join` and `s.split(c)`.
- `Feeds` (feeds.dfy) holds the shared pieces:
  - feed entries and the Google News client configuration;
  - the language default and the identity `effective_country`;
  - the WORLD versus top-news routing;
  - Python's `xs[:n]` slice;
  - copying entry fields into articles.
- `Endpoints` (endpoints.dfy) models the three handlers of
  backend/app/main.py. This includes the query validation the framework does
  before a handler runs (the regex and `ge`/`le` constraints, status 422) and
  the single status-500 error path of each handler.
- `Tally` (tally.dfy) models `collections.Counter` over a keyword list, in
  first-occurrence order, and the `zip(*items())` that fails on an empty
  counter.
- `Trends` (trends.dfy) models the handlers of backend/app/trend_analysis.py:
  `/fetch_trends` with keywords, summaries and the word cloud,
  `/trend_analysis` and `/trending_chart`.
- `QueryString` (query_string.dfy) models `call_api`'s URL construction in
  backend/app/app.py, and a reader of the query string used to state what a
  server gets back.
- `Wrappers` (wrappers.dfy) holds the `Option` and `Result` types.

The news service, the keyword extractor (YAKE) and the image renderers
(WordCloud and matplotlib) are libraries. They appear as function-typed
parameters (`Fetcher`, `Extractor`, `CloudRenderer`, `ChartRenderer`): each
returns a value or the text of the exception it raised. An exception from any
of them inside a handler's `try` block takes that handler's status-500 path.

Where the code and its documentation differ, the model follows the
code:

- In trend_analysis.py, the `wordcloud` field of `/fetch_trends` is always
  set. A failing word-cloud render gives the status-500 error, not a missing
  image.
- trend_analysis.py's `/fetch_trends` defaults the country to `"WORLD"`, so
  without a country it asks for the world headlines. Unlike main.py, it does
  not check `lang` or `country` against the code lists; only `limit` is
  checked.
- `effective_country` is the given country in both arms of its conditional.
- `generate_summary` returns the empty string, not the placeholder, for a
  non-empty text made only of tags. This is because `re.split` always returns
  at least one piece.

## Model

| member | source | states |
|---|---|---|
| Summary.StripTags | backend/app/trend_analysis.py:57 | The substitution never lengthens the text. What it removes is stated by Summary.CloseOfMeaning, Summary.StripTagsUntagged, Summary.StripTagsIdempotent and Summary.StripTagsKeepsNewlines. |
| Summary.CloseOf | backend/app/trend_analysis.py:57 | When a tag closes, it closes at a `>` inside the text. Summary.CloseOfMeaning states that this is the first one, with no newline before it. |
| Summary.SplitSentences | backend/app/trend_analysis.py:58 | The split always gives at least one piece, as `re.split` does. Summary.SplitSentencesShape and Summary.SplitFirstPiece state what the pieces are. |
| Summary.GenerateSummary | backend/app/trend_analysis.py:52-59 | Empty text gives "No summary available.". Otherwise the summary is a prefix of the tag-stripped text. It is either the whole stripped text or ends exactly where an end mark followed by a space starts a break. It contains no such break itself, so it is the first sentence. |
| Summary.CloseOfMeaning | backend/app/trend_analysis.py:57 | A tag opened by `<` closes at the first `>`, and no newline or `>` occurs before it. A `<` stays when every later `>` has a newline before it. This is the lazy `.*?` that does not cross newlines. |
| Summary.StripTagsUntagged | backend/app/trend_analysis.py:57 | After the substitution, no `<` is followed on its line by a `>`, so no tag is left. |
| Summary.StripTagsIdempotent | backend/app/trend_analysis.py:57 | Stripping tags a second time changes nothing. |
| Summary.StripTagsKeepsNewlines | backend/app/trend_analysis.py:57 | Removed tags never span a line, so the stripped text has exactly as many newlines as the input. |
| Summary.ScanStripTags | backend/app/trend_analysis.py:57 | A left-to-right scan that drops each `<…>` run up to its first `>` produces exactly the substitution's result. |
| Summary.FindClose | backend/app/trend_analysis.py:57 | The scan for a tag's end stops at the closing `>` when the tag closes, and otherwise reports that the `<` stays. |
| Summary.SplitSentencesShape | backend/app/trend_analysis.py:58 | No piece of the split contains a break. Every piece but the last ends with `.`, `!` or `?`. |
| Summary.SplitFirstPiece | backend/app/trend_analysis.py:58-59 | The first piece is the text up to the first end mark that is followed by a space. |
| Summary.GenerateSummaryIdempotent | backend/app/trend_analysis.py:57-59 | Summarising a non-empty summary gives it back unchanged. |
| Summary.PlainTextIsStable | backend/app/trend_analysis.py:57-59 | A non-empty text with no `<` and no sentence break is its own summary. |
| Summary.PlaceholderIsStable | backend/app/trend_analysis.py:54-59 | The placeholder summarises to itself. |
| Summary.OnlyTagsGiveEmpty | backend/app/trend_analysis.py:57-59 | A non-empty text that is all tags gives the empty string, not the placeholder. |
| Base64.SextetCharIsTable | backend/app/trend_analysis.py:72 | The character arithmetic for a 6-bit value picks that value's entry in the base64 alphabet `A–Z a–z 0–9 + /`. |
| Base64.SextetRoundTrip | backend/app/trend_analysis.py:72 | Every 6-bit value's character reads back as that value. |
| Base64.Encode | backend/app/trend_analysis.py:72 | The encoding of n bytes has 4·⌈n/3⌉ characters. What the characters hold is stated by the layout lemmas below. |
| Base64.EncodeTripleLayout | backend/app/trend_analysis.py:72 | The four characters of a full group, read as 6-bit values most significant first, form the same 24-bit number as the three bytes read most significant first. This is the bit layout of section 4 of RFC 4648. |
| Base64.EncodeOneLayout | backend/app/trend_analysis.py:72 | A final single byte is written as two characters carrying its eight bits followed by four zero bits. |
| Base64.EncodeTwoLayout | backend/app/trend_analysis.py:72 | A final pair of bytes is written as three characters carrying their sixteen bits followed by two zero bits. |
| Base64.StandardVectors | backend/app/trend_analysis.py:72 | The encoder gives the test vectors of section 10 of RFC 4648: "", "Zg==", "Zm8=", "Zm9v", "Zm9vYg==", "Zm9vYmE=" and "Zm9vYmFy". |
| Base64.EncodeCharacters | backend/app/trend_analysis.py:72 | The encoding uses only alphabet characters and `=`. Padding occurs only in the last two positions, and there is none when the length is a multiple of three. |
| Base64.DecodeEncodeTriple | backend/app/trend_analysis.py:72 | Four characters of a three-byte group decode back to the three bytes. |
| Base64.DecodeEncode | backend/app/trend_analysis.py:72 | Decoding the encoding of any byte string gives back exactly that byte string. |
| Base64.PngDataUrl | backend/app/trend_analysis.py:72-73 | The URL starts with `data:image/png;base64,` and continues with a well-padded payload of 4·⌈n/3⌉ characters. |
| Base64.PngDataUrlRoundTrip | backend/app/trend_analysis.py:72-73 | The PNG bytes can be recovered from the data URL. |
| Strings.SplitJoin | backend/app/app.py:92 | Splitting a join on its one-character separator gives back the pieces when no piece contains it. |
| Strings.JoinLength | backend/app/trend_analysis.py:99 | A join's length is the pieces' total length plus one separator between each neighbouring pair. |
| Strings.Join | backend/app/trend_analysis.py:99 | Joining no pieces gives "" and joining one piece gives that piece. Longer joins are described by Strings.JoinLength, Strings.JoinSnoc and Strings.SplitJoin. |
| Strings.JoinSnoc | backend/app/trend_analysis.py:99 | Joining one more piece appends the separator and that piece. |
| Feeds.DefaultLang | backend/app/main.py:38 | An absent or empty language becomes "en". Any other language is kept. The result is never empty. trend_analysis.py:90 uses the same rule. |
| Feeds.EffectiveCountry | backend/app/main.py:37 | The effective country is the given country, for every input. |
| Feeds.Route | backend/app/main.py:43-46 | The listing is the "WORLD" topic headlines exactly when a non-empty country upper-cases to "WORLD". Otherwise it is the top news. |
| Feeds.RouteIgnoresCase | backend/app/main.py:43 | Routing gives the same listing for a country and its upper-cased form. |
| Feeds.UpperIdempotent | backend/app/main.py:43 | Upper-casing twice equals upper-casing once. |
| Feeds.Take | backend/app/main.py:54 | Python's `xs[:n]` is a prefix of `xs`. It has as many elements as the smaller of n and the length of `xs` for n ≥ 0, and drops the last `-n` elements for negative n. |
| Feeds.Headlines | backend/app/main.py:48-55 | One article per entry up to the limit, in feed order. Each copies the entry's title, link and published date, and the title of its source. |
| Endpoints.Violations | backend/app/main.py:31-33 | The rejection lists `lang` exactly when it is outside the language list, `country` exactly when it is outside the country list, and `limit` exactly when it is outside 1..50. It is empty exactly when all three are accepted. |
| Endpoints.PlanTopFetch | backend/app/main.py:37-46 | The client gets a non-empty language and the country unchanged. The listing is the "WORLD" topic headlines exactly when the country is the world code in any letter case, and otherwise the top news. |
| Endpoints.PlanTopicFetch | backend/app/main.py:73-79 | The client gets the language as given, or "en" when it is missing or empty, and the country unchanged. The listing is always a search for the topic. |
| Endpoints.Shape | backend/app/main.py:48-59 | The body carries the feed's title and, for a non-negative limit, as many articles as the smaller of the limit and the number of entries. Each article is its entry copied, in feed order. |
| Endpoints.FetchTrends | backend/app/main.py:29-62 | The query is rejected exactly when a parameter is invalid. A server error occurs exactly when the query is valid and the fetch fails, and it is status 500 with "Error fetching news: " followed by the failure's text. A reply never holds more articles than the limit. |
| Endpoints.AcceptedCountryRouting | backend/app/main.py:32-46 | For a country that passes validation, only "WORLD" itself selects the world headlines. |
| Endpoints.PlanTopFetchChoices | backend/app/main.py:37-46 | The client gets the defaulted language and the country unchanged. The listing is the WORLD headlines exactly when the country is the world code in any case, and the top news exactly otherwise. |
| Endpoints.FetchTrendsSucceeds | backend/app/main.py:48-59 | A successful fetch replies with the feed title and the first `limit` entries (`min(limit, entries)` of them), each copied into an article, in order. |
| Endpoints.FetchTrendsFails | backend/app/main.py:60-62 | A failing fetch gives exactly status 500 with "Error fetching news: " followed by the failure's text. |
| Endpoints.FetchTrendsByTopic | backend/app/main.py:64-94 | Same validation as `/fetch_trends`. A server error occurs exactly when the query is valid and the topic search fails, and it is status 500 with "Error fetching news: " followed by the failure's text. A reply never holds more articles than the limit. |
| Endpoints.FetchTrendsByTopicFails | backend/app/main.py:92-94 | A failing topic search gives exactly status 500 with "Error fetching news: " followed by the failure's text, and no articles. |
| Endpoints.TopicAlwaysSearches | backend/app/main.py:78-91 | The topic endpoint always searches for the topic name, whatever the country, and replies with the shaped search result. |
| Endpoints.UpdateTrends | backend/app/main.py:96-116 | Rejected exactly when the language or country is invalid. A server error occurs exactly when both are valid and the fetch fails, and it is status 500 with "Error updating trends: " followed by the failure's text. A reply carries the message "Trends updated". |
| Endpoints.UpdateTrendsFails | backend/app/main.py:114-116 | A failing fetch gives exactly status 500 with "Error updating trends: " followed by the failure's text. |
| Endpoints.UpdateTrendsReply | backend/app/main.py:108-113 | A successful update replies with exactly the fixed message and the routed feed's title. |
| Tally.Bump | backend/app/trend_analysis.py:156 | Counting one more keyword keeps the existing keys in place. It appends `(k, 1)` only for a key not yet present, and the key set grows by exactly `k`. |
| Tally.Counter | backend/app/trend_analysis.py:156 | The counter has at most one item per keyword. Its keys, counts and order are stated by Tally.CounterKeys, Tally.CounterCounts and Tally.CounterOrder. |
| Tally.BumpCounts | backend/app/trend_analysis.py:156 | Counting `k` raises `k`'s count by one, leaves every other count unchanged, and raises the total by one. |
| Tally.CounterShape | backend/app/trend_analysis.py:156 | The counter's keys are distinct and every count is positive. |
| Tally.CounterKeys | backend/app/trend_analysis.py:156 | The counter's keys are exactly the distinct keywords. |
| Tally.CounterCounts | backend/app/trend_analysis.py:156 | Each keyword's count is its number of occurrences, and the counts add up to the number of keywords. |
| Tally.CounterItems | backend/app/trend_analysis.py:156 | Each item holds its key's number of occurrences. |
| Tally.CounterOrder | backend/app/trend_analysis.py:156 | Items appear in the order of their keys' first occurrence. |
| Tally.CounterEmpty | backend/app/trend_analysis.py:154-158 | The counter is empty exactly when there are no keywords. |
| Tally.Unzip | backend/app/trend_analysis.py:158 | `zip(*items)` fails exactly on an empty counter. Otherwise it gives two equally long columns whose i-th entries form the i-th item. |
| Tally.ChartBars | backend/app/trend_analysis.py:156-161 | The bars drawn are non-empty and have distinct labels, exactly the distinct keywords in first-occurrence order. Each bar is as long as its keyword's number of occurrences. |
| Trends.AggregateText | backend/app/trend_analysis.py:99 | A single entry's keyword text is its title, a space and its summary. Trends.AggregateTextSnoc extends this entry by entry. |
| Trends.TitleText | backend/app/trend_analysis.py:130 | No entries give "" and one entry gives its title. Trends.TitleTextSnoc extends this entry by entry. |
| Trends.TitleTextSnoc | backend/app/trend_analysis.py:130 | The title text of one more entry adds a space and that entry's title. |
| Trends.ToArticle | backend/app/trend_analysis.py:103-111 | An article copies the entry's title, link, published date and source title. An entry with an empty summary gets the placeholder. Otherwise the summary is a prefix of the tag-stripped summary input. |
| Trends.Analyse | backend/app/trend_analysis.py:97-118 | The response exists exactly when both keyword extraction and the word-cloud render succeed; otherwise it is the failure text of the extractor, or else of the renderer. A response carries the feed's title, one article per entry up to the limit, each built from its entry in order, and a PNG data URL. |
| Trends.Plan | backend/app/trend_analysis.py:84-95 | The client gets the language as given, or "en" when it is missing or empty, and the country, "WORLD" when none is given. The listing is the world headlines exactly when that country is the world code in any letter case. |
| Trends.SummaryInput | backend/app/trend_analysis.py:109 | The summary is used whenever the entry has one, even an empty one. The title is used otherwise. |
| Trends.AggregateTextSnoc | backend/app/trend_analysis.py:99 | The keyword text of one more entry adds a space, then that entry's title, a space and its summary. |
| Trends.Wordcloud | backend/app/trend_analysis.py:61-73 | Succeeds exactly when rendering the space-joined keywords succeeds. The data URL then decodes back to the rendered PNG. |
| Trends.FetchTrends | backend/app/trend_analysis.py:81-121 | Rejected exactly when the limit is outside 1..50, and then only the limit is listed. With a valid limit, a failing fetch gives status 500 with "Error fetching news: " and its text; after a successful fetch, a server error occurs exactly when extraction or rendering fails, with that failure's text after the same prefix. A reply always carries a PNG data URL. |
| Trends.MissingCountryMeansWorld | backend/app/trend_analysis.py:84-95 | Without a country, the client is configured with "WORLD" and the world headlines are fetched. |
| Trends.FetchTrendsSucceeds | backend/app/trend_analysis.py:97-118 | A successful request replies with the feed title and one article per entry up to the limit: fields copied, summary generated. The keywords come from exactly those entries, and the word cloud is the data URL of the rendered image. |
| Trends.FetchTrendsFetchFails | backend/app/trend_analysis.py:119-121 | A failing fetch gives exactly status 500 with "Error fetching news: " and the failure's text. |
| Trends.FetchTrendsExtractionFails | backend/app/trend_analysis.py:100-121 | A failing keyword extraction gives exactly status 500 with "Error fetching news: " and the extractor's failure text. |
| Trends.FetchTrendsRenderFails | backend/app/trend_analysis.py:101-121 | A failing word-cloud render gives exactly status 500 with "Error fetching news: " and the renderer's failure text, never a reply without an image. |
| Trends.EntriesPastLimitIgnored | backend/app/trend_analysis.py:97-101 | Entries past the limit do not influence the response. |
| Trends.EmptySummaryGivesPlaceholder | backend/app/trend_analysis.py:109 | An entry whose summary is empty gets the placeholder, not its title. |
| Trends.MissingSummaryUsesTitle | backend/app/trend_analysis.py:109 | An entry without a summary gets the summary of its title. |
| Trends.TrendAnalysis | backend/app/trend_analysis.py:123-141 | Never a 422. A failing fetch, extraction of the titles' keywords or render each gives exactly status 500 with "Error generating trend analysis: " followed by that failure's text. A reply carries the fixed message, exactly the keywords extracted from the titles, and a data URL that decodes to the rendered PNG. |
| Trends.TrendAnalysisSucceeds | backend/app/trend_analysis.py:127-138 | When the fetch, the extraction of 15 keywords from the space-joined titles and the render succeed, the reply is exactly the fixed message, those keywords and the data URL of the rendered PNG. |
| Trends.TrendingChart | backend/app/trend_analysis.py:146-176 | Never a 422. A failing fetch or keyword extraction gives exactly status 500 with the fixed detail "Error generating trending chart", and every other server error carries that same detail. |
| Trends.ChartFailsOnlyWithoutKeywords | backend/app/trend_analysis.py:153-176 | With a working feed, extractor and renderer, the chart fails exactly when the extractor found no keyword. |
| Trends.ChartShowsCounts | backend/app/trend_analysis.py:153-172 | A drawn chart means the extraction succeeded, and the image is the renderer's output for the counter's columns. Those columns hold one bar per distinct keyword, with no label repeated, in order of first occurrence, each as long as that keyword's number of occurrences. |
| QueryString.Truthy | backend/app/app.py:92 | A value that passes the `if v` filter renders as a non-empty string. |
| QueryString.Render | backend/app/app.py:92 | `f"{v}"`: `None` becomes "None", a string is itself, an integer is its decimal form. QueryString.DecimalRoundTrip states that the decimal form reads back. |
| QueryString.DecimalString | backend/app/app.py:92 | The decimal form is non-empty and holds only digits, apart from a leading `-`. |
| QueryString.Kept | backend/app/app.py:92 | The filter keeps at most the given pairs, and every kept value is non-empty. Which pairs it keeps is stated by QueryString.KeptOne, QueryString.KeptAppend, QueryString.AllTruthyKeepsAll and QueryString.AllFalsyKeepsNothing. |
| QueryString.Query | backend/app/app.py:92 | The query part is empty exactly when no pair survives the filter. |
| QueryString.DecimalRoundTrip | backend/app/app.py:92 | An integer parameter rendered in decimal reads back as the same integer. |
| QueryString.BuildUrl | backend/app/app.py:88-92 | Without parameters, or with an empty dict, the URL is the base URL followed by the endpoint. Otherwise that is followed by `?` and the query. |
| QueryString.AllFalsyLeavesQuestionMark | backend/app/app.py:91-92 | When every value is falsy, the URL ends in a bare `?`. |
| QueryString.AllFalsyKeepsNothing | backend/app/app.py:92 | No pair with a falsy value is written. |
| QueryString.AllTruthyKeepsAll | backend/app/app.py:92 | When every value is truthy, every pair is written, in order, with its value rendered. |
| QueryString.KeptAppend | backend/app/app.py:92 | The filter works pair by pair: the pairs written for two runs of parameters are those of the first followed by those of the second. |
| QueryString.KeptOne | backend/app/app.py:92 | One pair is written as `key` and its rendered value exactly when its value is truthy. |
| QueryString.ParseEncodedPairs | backend/app/app.py:92 | Reading the `&`-joined `key=value` pieces gives back the pairs, when keys hold no `&` or `=` and values no `&`. |
| QueryString.UrlRoundTrip | backend/app/app.py:90-92 | Provided the endpoint holds no `?`, the parameters are non-empty, no key holds `&` or `=`, and no text value holds `&`: a reader that takes the text after the first `?`, splits it on `&` and each piece at its first `=`, and does no decoding, gets back exactly the truthy pairs with their rendered values, in order. QueryString.AmpersandInjectsParameter shows the conditions are needed. |
| QueryString.AmpersandInjectsParameter | backend/app/app.py:92 | Values are not percent-encoded, so the value `a&k2=v2` is read back as two parameters, `key=a` and `k2=v2`. |

## Left out

- The Google News client (`gn.top_news`, `gn.topic_headlines`, `gn.search`) is a `Fetcher` parameter. It returns a feed or the text of the exception it raised.
- Keyword extraction with YAKE is an `Extractor` parameter. YAKE's promise to return at most the requested number of keywords is not modelled, because the extractor is uninterpreted.
- Drawing the word cloud and the bar chart with WordCloud and matplotlib, including sizes, colours and the inverted axis, is out of scope. These are the `CloudRenderer` and `ChartRenderer` parameters, which give PNG bytes or an exception's text.
- Logging, the `"/"` root endpoints, model downloads, the unused summarizer imports and the Google API helper module carry no logic the responses depend on.
- The HTTP request itself, the half-second sleep, the error display of `call_api` and the whole Streamlit page layout are I/O and are out of scope. Only the URL construction is modelled.
- Feeds.Upper: upper-cases ASCII letters only, while Python's `str.upper` also maps other letters. The routing decision is still exact, in main.py and in trend_analysis.py (which does not validate the country). A string holding a non-ASCII character never upper-cases to "WORLD" in Python. The only non-ASCII characters whose upper-case form contains ASCII letters are ß, ı, ŉ, ſ, ǰ, ẖ, ẗ, ẘ, ẙ, ẚ and the ligatures ﬀ to ﬆ, and each of these yields a letter outside W, O, R, L, D or a non-ASCII mark. Feeds.Upper is used only in that decision.
- Summary.GenerateSummary: a `None` argument is not modelled. Callers in the source always pass a string.
- A feed entry missing `title`, `link`, `published` or `source` raises `KeyError` in the source and ends in the status-500 path. The model's entries always carry these fields, so that failure is not modelled.
- QueryString.ParseQuery: splits on `&` and at the first `=` and decodes nothing. `call_api` encodes nothing, so a real server changes some values: it decodes `+` and `%xx` sequences, and `requests` treats everything after a `#` as a fragment and does not send it. QueryString.UrlRoundTrip therefore holds for this reader, not for a real server's decoding.
- QueryString.BuildUrl: parameters are a sequence of pairs in insertion order, as a Python dict iterates. Key uniqueness is not enforced, because it does not affect the URL text.
- Endpoints.Violations: a value is accepted only when it is exactly one of the listed codes, which is how pydantic v2 matches the `^(…)$` patterns of main.py:31-32, 67-68 and 98-99. Under pydantic v1 the framework uses Python's `re.match`, where `$` also matches before one final newline, so `en` or `WORLD` followed by `\n` would pass and reach the handler (and `WORLD\n` would then route to the top news). The pinned framework version is not part of this model, so that acceptance is not modelled.
- Endpoints.Query: `limit` is modelled as an already-parsed integer. A limit that is not an integer (`?limit=abc`, `?limit=`) gets a 422 from the framework's `int` conversion in main.py and trend_analysis.py, and the model cannot express that input.
- The response models' serialisation to JSON, and FastAPI's exact 422 error body, are not modelled. A rejection is modelled as the list of offending parameters.

=== FILE: base64.dfy ===
/** The embedded-image string returned by generate_wordcloud in
    backend/app/trend_analysis.py: a data URL (section 3 of RFC 2397) whose
    payload is the base64 encoding of the PNG bytes, with the alphabet and
    `=` padding of section 4 of RFC 4648. */
module Base64 {
  import opened Wrappers

  /** An octet of the image. */
  type Byte = x: int | 0 <= x < 256

  /** A 6-bit group, the unit one character encodes. */
  type Sextet = x: int | 0 <= x < 64

  /** The 64-character encoding alphabet of RFC 4648, section 4, Table 1:
      values 0-25 are the capitals, 26-51 the small letters, 52-61 the
      digits, then `+` and `/`. */
  const Alphabet: string := Capitals + SmallLetters + Digits + "+/"
  const Capitals: string := "ABCDEFGHIJKLMNOPQRSTUVWXYZ"
  const SmallLetters: string := "abcdefghijklmnopqrstuvwxyz"
  const Digits: string := "0123456789"

  /** The padding character. */
  const Pad: char := '='

  /** The prefix of the data URL: media type image/png, base64 payload. */
  const PngDataPrefix: string := "data:image/png;base64,"

  /** The character that encodes a 6-bit group. */
  function SextetChar(v: Sextet): char {
    if v < 26 then (('A' as int) + v) as char
    else if v < 52 then (('a' as int) + v - 26) as char
    else if v < 62 then (('0' as int) + v - 52) as char
    else if v == 62 then '+'
    else '/'
  }

  /** The 6-bit group a character encodes, if it is in the alphabet. */
  function CharSextet(c: char): (r: Option<Sextet>)
    ensures r.Some? ==> SextetChar(r.value) == c
  {
    if 'A' <= c <= 'Z' then Some((c as int) - ('A' as int))
    else if 'a' <= c <= 'z' then Some((c as int) - ('a' as int) + 26)
    else if '0' <= c <= '9' then Some((c as int) - ('0' as int) + 52)
    else if c == '+' then Some(62)
    else if c == '/' then Some(63)
    else None
  }

  /** The computed mapping is the table of the standard. */
  lemma SextetCharIsTable(v: Sextet)
    ensures SextetChar(v) == Alphabet[v]
  {
    if v < 26 {
      if v < 7 {} else if v < 13 {} else if v < 20 {} else {}
    } else if v < 52 {
      var w := v - 26;
      assert Alphabet[v] == SmallLetters[w];
      if w < 7 {} else if w < 13 {} else if w < 20 {} else {}
    } else {
      if v < 58 {} else {}
    }
  }

  /** A character of the encoding alphabet (padding excluded). */
  predicate IsAlphabetChar(c: char) {
    CharSextet(c).Some?
  }

  /** Decoding a character undoes encoding a 6-bit group. */
  lemma SextetRoundTrip(v: Sextet)
    ensures CharSextet(SextetChar(v)) == Some(v)
  {
  }

  /** Every character of `e` is in the alphabet or is padding; padding
      only fills the last two positions, and never appears when `whole`. */
  predicate Padded(e: string, whole: bool) {
    && (forall i :: 0 <= i < |e| ==> IsAlphabetChar(e[i]) || e[i] == Pad)
    && (forall i :: 0 <= i < |e| - 2 ==> e[i] != Pad)
    && (whole ==> forall i :: 0 <= i < |e| ==> e[i] != Pad)
  }

  /** An encoding is padded only at its end, and not at all when the input
      length is a multiple of three. */
  lemma {:induction false} EncodeCharacters(bs: seq<Byte>)
    ensures Padded(Encode(bs), |bs| % 3 == 0)
    decreases |bs|
  {
    if |bs| > 2 {
      EncodeCharacters(bs[3..]);
      EncodeCharactersStep(bs);
    } else {
      ShortCharacters(bs);
    }
  }

  lemma ShortCharacters(bs: seq<Byte>)
    requires |bs| <= 2
    ensures Padded(Encode(bs), |bs| % 3 == 0)
  {
    if |bs| == 1 {
      EncodeShort(bs);
      OnePadded(bs[0]);
    } else if |bs| == 2 {
      EncodeShort(bs);
      TwoPadded(bs[0], bs[1]);
    }
  }

  lemma OnePadded(a: Byte)
    ensures Padded(EncodeOne(a), false)
  {
    var e := EncodeOne(a);
    forall i | 0 <= i < 4
      ensures IsAlphabetChar(e[i]) || e[i] == Pad
    {
      if i < 2 {} else {}
    }
  }

  lemma TwoPadded(a: Byte, b: Byte)
    ensures Padded(EncodeTwo(a, b), false)
  {
    var e := EncodeTwo(a, b);
    forall i | 0 <= i < 4
      ensures IsAlphabetChar(e[i]) || e[i] == Pad
    {
      if i < 3 {} else {}
    }
  }

  lemma EncodeCharactersStep(bs: seq<Byte>)
    requires |bs| > 2
    requires Padded(Encode(bs[3..]), |bs[3..]| % 3 == 0)
    ensures Padded(Encode(bs), |bs| % 3 == 0)
  {
    ModThree(|bs[3..]|);
    EncodeFront(bs);
    CharactersAppend(EncodeTriple(bs[0], bs[1], bs[2]), Encode(bs[3..]), |bs| % 3 == 0);
  }

  /** A solver helper, not a property of the encoding: stated inline in
      the step above, the arithmetic fact makes that proof run out of
      resource. */
  lemma ModThree(n: nat)
    ensures (n + 3) % 3 == n % 3
  {
  }

  /** An input longer than two bytes encodes its first group, then the rest. */
  lemma EncodeFront(bs: seq<Byte>)
    requires |bs| > 2
    ensures Encode(bs) == EncodeTriple(bs[0], bs[1], bs[2]) + Encode(bs[3..])
  {
  }

  /** A full group in front of an encoding keeps it well padded. */
  lemma CharactersAppend(head: string, rest: string, whole: bool)
    requires |head| == 4 && forall i :: 0 <= i < 4 ==> IsAlphabetChar(head[i])
    requires Padded(rest, whole)
    ensures Padded(head + rest, whole)
  {
    assert forall i :: 4 <= i < |head + rest| ==> (head + rest)[i] == rest[i - 4];
  }

  /** The four 6-bit groups of three bytes, most significant first. */
  function Split3(a: Byte, b: Byte, c: Byte): (Sextet, Sextet, Sextet, Sextet) {
    (a / 4, (a % 4) * 16 + b / 16, (b % 16) * 4 + c / 64, c % 64)
  }

  /** Three bytes become four characters. */
  function EncodeTriple(a: Byte, b: Byte, c: Byte): (r: string)
    ensures |r| == 4
    ensures forall i :: 0 <= i < 4 ==> IsAlphabetChar(r[i])
  {
    var (s0, s1, s2, s3) := Split3(a, b, c);
    SextetRoundTrip(s0);
    SextetRoundTrip(s1);
    SextetRoundTrip(s2);
    SextetRoundTrip(s3);
    [SextetChar(s0), SextetChar(s1), SextetChar(s2), SextetChar(s3)]
  }

  /** One trailing byte becomes two characters and two pads: the missing
      bytes count as zero bits. */
  function EncodeOne(a: Byte): (r: string)
    ensures |r| == 4 && r[2] == Pad && r[3] == Pad
    ensures IsAlphabetChar(r[0]) && IsAlphabetChar(r[1])
  {
    var t := EncodeTriple(a, 0, 0);
    [t[0], t[1], Pad, Pad]
  }

  /** Two trailing bytes become three characters and one pad. */
  function EncodeTwo(a: Byte, b: Byte): (r: string)
    ensures |r| == 4 && r[3] == Pad
    ensures IsAlphabetChar(r[0]) && IsAlphabetChar(r[1]) && IsAlphabetChar(r[2])
  {
    var t := EncodeTriple(a, b, 0);
    [t[0], t[1], t[2], Pad]
  }

  /** base64.b64encode: the length is four times the number of (possibly
      partial) three-byte groups. */
  function Encode(bs: seq<Byte>): (r: string)
    ensures |r| == 4 * ((|bs| + 2) / 3)
    decreases |bs|
  {
    if |bs| == 0 then ""
    else if |bs| == 1 then EncodeOne(bs[0])
    else if |bs| == 2 then EncodeTwo(bs[0], bs[1])
    else
      assert (|bs| + 2) / 3 == (|bs| - 1) / 3 + 1;
      EncodeTriple(bs[0], bs[1], bs[2]) + Encode(bs[3..])
  }

  /** The bytes that four 6-bit groups carry. */
  function Join4(s0: Sextet, s1: Sextet, s2: Sextet, s3: Sextet): (Byte, Byte, Byte) {
    (s0 * 4 + s1 / 16, (s1 % 16) * 16 + s2 / 4, (s2 % 4) * 64 + s3)
  }

  /** Four alphabet characters back to three bytes. */
  function DecodeTriple(q: string): (r: Option<seq<Byte>>)
    requires |q| == 4
  {
    match (CharSextet(q[0]), CharSextet(q[1]), CharSextet(q[2]), CharSextet(q[3]))
    case (Some(s0), Some(s1), Some(s2), Some(s3)) =>
      var (a, b, c) := Join4(s0, s1, s2, s3);
      Some([a, b, c])
    case _ => None
  }

  /** The final group, which may carry one or two pads. */
  function DecodeFinal(q: string): (r: Option<seq<Byte>>)
    requires |q| == 4
  {
    if q[2] == Pad && q[3] == Pad then
      match (CharSextet(q[0]), CharSextet(q[1]))
      case (Some(s0), Some(s1)) => Some([Join4(s0, s1, 0, 0).0])
      case _ => None
    else if q[3] == Pad then
      match (CharSextet(q[0]), CharSextet(q[1]), CharSextet(q[2]))
      case (Some(s0), Some(s1), Some(s2)) =>
        var (a, b, _) := Join4(s0, s1, s2, 0);
        Some([a, b])
      case _ => None
    else DecodeTriple(q)
  }

  /** base64 decoding of a padded string; `None` for a length that is not a
      multiple of four or a character outside the alphabet. */
  function Decode(s: string): (r: Option<seq<Byte>>)
    decreases |s|
  {
    if |s| == 0 then Some([])
    else if |s| < 4 then None
    else if |s| == 4 then DecodeFinal(s)
    else match (DecodeTriple(s[..4]), Decode(s[4..]))
      case (Some(h), Some(t)) => Some(h + t)
      case _ => None
  }

  /** Regrouping the 6-bit groups of three bytes gives the bytes back. */
  lemma JoinSplit(a: Byte, b: Byte, c: Byte)
    ensures var (s0, s1, s2, s3) := Split3(a, b, c); Join4(s0, s1, s2, s3) == (a, b, c)
  {
    var (s0, s1, s2, s3) := Split3(a, b, c);
    DivMod16(a % 4, b / 16);
    DivMod4(b % 16, c / 64);
    assert s0 * 4 + s1 / 16 == a;
    assert (s1 % 16) * 16 + s2 / 4 == b;
    assert (s2 % 4) * 64 + s3 == c;
  }

  lemma DivMod16(q: nat, r: nat)
    requires r < 16
    ensures (q * 16 + r) / 16 == q && (q * 16 + r) % 16 == r
  {
  }

  lemma DivMod4(q: nat, r: nat)
    requires r < 4
    ensures (q * 4 + r) / 4 == q && (q * 4 + r) % 4 == r
  {
  }

  lemma DecodeEncodeTriple(a: Byte, b: Byte, c: Byte)
    ensures DecodeTriple(EncodeTriple(a, b, c)) == Some([a, b, c])
  {
    var (s0, s1, s2, s3) := Split3(a, b, c);
    JoinSplit(a, b, c);
    SextetRoundTrip(s0);
    SextetRoundTrip(s1);
    SextetRoundTrip(s2);
    SextetRoundTrip(s3);
  }

  /** The 6-bit value a character stands for, to be read only of alphabet
      characters. */
  function ValueOf(c: char): Sextet
    requires IsAlphabetChar(c)
  {
    CharSextet(c).value
  }

  /** Section 4 of RFC 4648: the four characters of a full group, read as
      6-bit values most significant first, form the same 24-bit number as
      the three bytes read as 8-bit values most significant first. */
  lemma EncodeTripleLayout(a: Byte, b: Byte, c: Byte)
    ensures var t := EncodeTriple(a, b, c);
      ValueOf(t[0]) * 262144 + ValueOf(t[1]) * 4096 + ValueOf(t[2]) * 64 + ValueOf(t[3])
        == a * 65536 + b * 256 + c
  {
    var (s0, s1, s2, s3) := Split3(a, b, c);
    SextetRoundTrip(s0);
    SextetRoundTrip(s1);
    SextetRoundTrip(s2);
    SextetRoundTrip(s3);
    assert a == (a / 4) * 4 + a % 4;
    assert b == (b / 16) * 16 + b % 16;
    assert c == (c / 64) * 64 + c % 64;
  }

  /** A final single byte: the two characters carry its eight bits followed
      by four zero bits. */
  lemma EncodeOneLayout(a: Byte)
    ensures var r := EncodeOne(a);
      ValueOf(r[0]) * 64 + ValueOf(r[1]) == a * 16
  {
    var (s0, s1, _, _) := Split3(a, 0, 0);
    SextetRoundTrip(s0);
    SextetRoundTrip(s1);
    assert a == (a / 4) * 4 + a % 4;
  }

  /** A final pair of bytes: the three characters carry their sixteen bits
      followed by two zero bits. */
  lemma EncodeTwoLayout(a: Byte, b: Byte)
    ensures var r := EncodeTwo(a, b);
      ValueOf(r[0]) * 4096 + ValueOf(r[1]) * 64 + ValueOf(r[2]) == a * 1024 + b * 4
  {
    var (s0, s1, s2, _) := Split3(a, b, 0);
    SextetRoundTrip(s0);
    SextetRoundTrip(s1);
    SextetRoundTrip(s2);
    assert a == (a / 4) * 4 + a % 4;
    assert b == (b / 16) * 16 + b % 16;
  }

  /** The test vectors of section 10 of RFC 4648. */
  lemma StandardVectors()
    ensures Encode([]) == ""
    ensures Encode([102]) == "Zg=="
    ensures Encode([102, 111]) == "Zm8="
    ensures Encode([102, 111, 111]) == "Zm9v"
    ensures Encode([102, 111, 111, 98]) == "Zm9vYg=="
    ensures Encode([102, 111, 111, 98, 97]) == "Zm9vYmE="
    ensures Encode([102, 111, 111, 98, 97, 114]) == "Zm9vYmFy"
  {
    var foobar: seq<Byte> := [102, 111, 111, 98, 97, 114];
    assert foobar[3..] == [98, 97, 114];
    assert [102, 111, 111, 98, 97][3..] == [98, 97];
    assert [102, 111, 111, 98][3..] == [98];
  }

  lemma DecodeEncodeTwo(a: Byte, b: Byte)
    ensures DecodeFinal(EncodeTwo(a, b)) == Some([a, b])
  {
    var (s0, s1, s2, s3) := Split3(a, b, 0);
    JoinSplit(a, b, 0);
    assert s3 == 0;
    SextetRoundTrip(s0);
    SextetRoundTrip(s1);
    SextetRoundTrip(s2);
    var q := EncodeTwo(a, b);
    assert q == [SextetChar(s0), SextetChar(s1), SextetChar(s2), Pad];
    assert q[2] != Pad;
  }

  /** A full group in front of a decodable rest decodes group by group. */
  lemma DecodeAppend(head: string, rest: string, h: seq<Byte>, t: seq<Byte>)
    requires |head| == 4 && |rest| > 0
    requires DecodeTriple(head) == Some(h) && Decode(rest) == Some(t)
    ensures Decode(head + rest) == Some(h + t)
  {
    var s := head + rest;
    assert s[..4] == head;
    assert s[4..] == rest;
  }

  /** A last group without padding decodes as a full group. */
  lemma DecodeLastTriple(a: Byte, b: Byte, c: Byte)
    ensures Decode(EncodeTriple(a, b, c)) == Some([a, b, c])
  {
    var q := EncodeTriple(a, b, c);
    DecodeEncodeTriple(a, b, c);
    assert q[2] != Pad && q[3] != Pad;
  }

  /** Unfolding `Encode` on inputs of at most one group. */
  lemma EncodeShort(bs: seq<Byte>)
    requires |bs| <= 3
    ensures |bs| == 1 ==> Encode(bs) == EncodeOne(bs[0])
    ensures |bs| == 2 ==> Encode(bs) == EncodeTwo(bs[0], bs[1])
    ensures |bs| == 3 ==> Encode(bs) == EncodeTriple(bs[0], bs[1], bs[2])
  {
    if |bs| == 3 {
      assert Encode(bs) == EncodeTriple(bs[0], bs[1], bs[2]) + Encode(bs[3..]);
    }
  }

  /** A sequence of at most three elements is the display of its elements. */
  lemma ShortDisplay(bs: seq<Byte>)
    requires |bs| <= 3
    ensures |bs| == 1 ==> [bs[0]] == bs
    ensures |bs| == 2 ==> [bs[0], bs[1]] == bs
    ensures |bs| == 3 ==> [bs[0], bs[1], bs[2]] == bs
  {
  }

  /** The round trip for inputs of at most one group. */
  lemma DecodeEncodeShort(bs: seq<Byte>)
    requires |bs| <= 3
    ensures Decode(Encode(bs)) == Some(bs)
  {
    if |bs| == 1 {
      RoundTripOne(bs);
    } else if |bs| == 2 {
      RoundTripTwo(bs);
    } else if |bs| == 3 {
      RoundTripThree(bs);
    }
  }

  lemma RoundTripOne(bs: seq<Byte>)
    requires |bs| == 1
    ensures Decode(Encode(bs)) == Some(bs)
  {
    EncodeShort(bs);
    DecodeEncodeTriple(bs[0], 0, 0);
    ShortDisplay(bs);
  }

  lemma RoundTripTwo(bs: seq<Byte>)
    requires |bs| == 2
    ensures Decode(Encode(bs)) == Some(bs)
  {
    EncodeShort(bs);
    DecodeEncodeTwo(bs[0], bs[1]);
    ShortDisplay(bs);
  }

  lemma RoundTripThree(bs: seq<Byte>)
    requires |bs| == 3
    ensures Decode(Encode(bs)) == Some(bs)
  {
    EncodeShort(bs);
    DecodeLastTriple(bs[0], bs[1], bs[2]);
    ShortDisplay(bs);
  }

  /** The round trip extends from the rest to one more leading group. */
  lemma DecodeEncodeStep(bs: seq<Byte>)
    requires |bs| > 3
    requires Decode(Encode(bs[3..])) == Some(bs[3..])
    ensures Decode(Encode(bs)) == Some(bs)
  {
    FirstGroup(bs);
    DecodeEncodeTriple(bs[0], bs[1], bs[2]);
    DecodeAppend(EncodeTriple(bs[0], bs[1], bs[2]), Encode(bs[3..]), bs[..3], bs[3..]);
  }

  lemma FirstGroup(bs: seq<Byte>)
    requires |bs| > 3
    ensures bs[..3] == [bs[0], bs[1], bs[2]]
    ensures bs == bs[..3] + bs[3..]
  {
  }

  /** Decoding an encoding gives back the bytes. */
  lemma {:induction false} DecodeEncode(bs: seq<Byte>)
    ensures Decode(Encode(bs)) == Some(bs)
    decreases |bs|
  {
    if |bs| <= 3 {
      DecodeEncodeShort(bs);
    } else {
      DecodeEncode(bs[3..]);
      DecodeEncodeStep(bs);
    }
  }

  /** generate_wordcloud's return value for the rendered PNG bytes. */
  function PngDataUrl(png: seq<Byte>): (r: string)
    ensures PngDataPrefix <= r
    ensures |r| == |PngDataPrefix| + 4 * ((|png| + 2) / 3)
    ensures Padded(r[|PngDataPrefix|..], |png| % 3 == 0)
  {
    EncodeCharacters(png);
    assert (PngDataPrefix + Encode(png))[|PngDataPrefix|..] == Encode(png);
    PngDataPrefix + Encode(png)
  }

  /** Reads the PNG bytes back out of a data URL of the form above. */
  function ParsePngDataUrl(s: string): (r: Option<seq<Byte>>)
  {
    if PngDataPrefix <= s then Decode(s[|PngDataPrefix|..]) else None
  }

  /** The data URL carries exactly the rendered bytes. */
  lemma PngDataUrlRoundTrip(png: seq<Byte>)
    ensures ParsePngDataUrl(PngDataUrl(png)) == Some(png)
  {
    assert PngDataUrl(png)[|PngDataPrefix|..] == Encode(png);
    DecodeEncode(png);
  }
}

=== FILE: endpoints.dfy ===
/** The three handlers of backend/app/main.py: `/fetch_trends`,
    `/fetch_trends/{topic_name}` and `/update_trends`, with the query
    validation the framework performs before a handler runs. */
module Endpoints {
  import opened Wrappers
  import opened Feeds

  /** The language codes the query accepts. */
  const Languages: seq<string> := ["en", "hi", "es", "fr", "uk", "ja"]

  /** The country codes the query accepts. */
  const Countries: seq<string> := ["WORLD", "US", "IN", "GB", "MX", "UA", "JP"]

  const DefaultLimit: int := 10
  const MinLimit: int := 1
  const MaxLimit: int := 50

  /** The query parameters; `None` when a parameter is not given. */
  datatype Query = Query(lang: Option<string>, country: Option<string>, limit: Option<int>)

  /** The response model of main.py. */
  datatype NewsResponse = NewsResponse(feedTitle: string, articles: seq<Headline>)

  /** The body `/update_trends` returns. */
  datatype UpdateReply = UpdateReply(message: string, feedTitle: string)

  /** The detail prefix of the fetch endpoints' server errors. */
  const FetchErrorPrefix: string := "Error fetching news: "

  /** The detail prefix of `/update_trends`' server errors. */
  const UpdateErrorPrefix: string := "Error updating trends: "

  predicate LangAccepted(lang: Option<string>) {
    lang.None? || lang.value in Languages
  }

  predicate CountryAccepted(country: Option<string>) {
    country.None? || country.value in Countries
  }

  predicate LimitAccepted(limit: Option<int>) {
    limit.None? || MinLimit <= limit.value <= MaxLimit
  }

  /** Every parameter check failure, in parameter order. */
  function Violations(lang: Option<string>, country: Option<string>, limit: Option<int>): (r: seq<Invalid>)
    ensures BadLang in r <==> !LangAccepted(lang)
    ensures BadCountry in r <==> !CountryAccepted(country)
    ensures BadLimit in r <==> !LimitAccepted(limit)
    ensures r == [] <==> LangAccepted(lang) && CountryAccepted(country) && LimitAccepted(limit)
  {
    (if LangAccepted(lang) then [] else [BadLang])
    + (if CountryAccepted(country) then [] else [BadCountry])
    + (if LimitAccepted(limit) then [] else [BadLimit])
  }

  /** The client and listing `/fetch_trends` uses. */
  function PlanTopFetch(q: Query): (r: (Client, Request))
    ensures r.0.lang != "" && r.0.country == q.country
    ensures r.1 == TopicHeadlines(World) || r.1 == TopNews
    ensures r.1.TopicHeadlines? <==> IsWorld(q.country)
  {
    (Client(DefaultLang(q.lang), EffectiveCountry(q.country)), Route(q.country))
  }

  /** The client and listing `/fetch_trends/{topic_name}` uses: always a
      search for the topic, whatever the country. */
  function PlanTopicFetch(topic: string, q: Query): (r: (Client, Request))
    ensures r.0.lang == DefaultLang(q.lang) && r.0.lang != ""
    ensures r.0.country == q.country
    ensures r.1 == Search(topic)
  {
    (Client(DefaultLang(q.lang), EffectiveCountry(q.country)), Search(topic))
  }

  /** The 500 response for a failure `e` raised inside a handler. */
  function Failure<T>(prefix: string, e: string): Response<T> {
    ServerError(500, prefix + e)
  }

  /** Builds the response body from a fetched feed. */
  function Shape(feed: Feed, limit: int): (r: NewsResponse)
    ensures r.feedTitle == feed.title
    ensures limit >= 0 ==> |r.articles| == if limit < |feed.entries| then limit else |feed.entries|
    ensures |r.articles| <= |feed.entries|
    ensures forall i :: 0 <= i < |r.articles| ==> r.articles[i] == ToHeadline(feed.entries[i])
  {
    NewsResponse(feed.title, Headlines(feed.entries, limit))
  }

  /** `/fetch_trends?lang&country&limit`. */
  function FetchTrends(q: Query, fetch: Fetcher): (r: Response<NewsResponse>)
    ensures r.Unprocessable? <==> Violations(q.lang, q.country, q.limit) != []
    ensures r.ServerError? ==> r.status == 500 && FetchErrorPrefix <= r.detail
    ensures var got := fetch(PlanTopFetch(q).0, PlanTopFetch(q).1);
      && (r.ServerError? <==> Violations(q.lang, q.country, q.limit) == [] && got.Err?)
      && (r.ServerError? ==> r.detail == FetchErrorPrefix + got.error)
    ensures r.Reply? ==> |r.body.articles| <= q.limit.GetOr(DefaultLimit)
  {
    var errors := Violations(q.lang, q.country, q.limit);
    if errors != [] then Unprocessable(errors)
    else
      var (client, request) := PlanTopFetch(q);
      match fetch(client, request)
      case Err(e) => Failure(FetchErrorPrefix, e)
      case Ok(feed) => Reply(Shape(feed, q.limit.GetOr(DefaultLimit)))
  }

  /** `/fetch_trends/{topic_name}?lang&country&limit`. */
  function FetchTrendsByTopic(topic: string, q: Query, fetch: Fetcher): (r: Response<NewsResponse>)
    ensures r.Unprocessable? <==> Violations(q.lang, q.country, q.limit) != []
    ensures r.ServerError? ==> r.status == 500 && FetchErrorPrefix <= r.detail
    ensures var got := fetch(PlanTopicFetch(topic, q).0, Search(topic));
      && (r.ServerError? <==> Violations(q.lang, q.country, q.limit) == [] && got.Err?)
      && (r.ServerError? ==> r.detail == FetchErrorPrefix + got.error)
    ensures r.Reply? ==> |r.body.articles| <= q.limit.GetOr(DefaultLimit)
  {
    var errors := Violations(q.lang, q.country, q.limit);
    if errors != [] then Unprocessable(errors)
    else
      var (client, request) := PlanTopicFetch(topic, q);
      match fetch(client, request)
      case Err(e) => Failure(FetchErrorPrefix, e)
      case Ok(feed) => Reply(Shape(feed, q.limit.GetOr(DefaultLimit)))
  }

  /** `/update_trends?lang&country`. */
  function UpdateTrends(lang: Option<string>, country: Option<string>, fetch: Fetcher): (r: Response<UpdateReply>)
    ensures r.Unprocessable? <==> !(LangAccepted(lang) && CountryAccepted(country))
    ensures r.ServerError? ==> r.status == 500 && UpdateErrorPrefix <= r.detail
    ensures var got := fetch(Client(DefaultLang(lang), country), Route(country));
      && (r.ServerError? <==> LangAccepted(lang) && CountryAccepted(country) && got.Err?)
      && (r.ServerError? ==> r.detail == UpdateErrorPrefix + got.error)
    ensures r.Reply? ==> r.body.message == "Trends updated"
  {
    var errors := Violations(lang, country, None);
    if errors != [] then Unprocessable(errors)
    else
      var client := Client(DefaultLang(lang), EffectiveCountry(country));
      match fetch(client, Route(country))
      case Err(e) => Failure(UpdateErrorPrefix, e)
      case Ok(feed) => Reply(UpdateReply("Trends updated", feed.title))
  }

  /** On an accepted country code, only "WORLD" itself selects the world
      headlines. */
  lemma AcceptedCountryRouting(country: Option<string>)
    requires CountryAccepted(country)
    ensures Route(country) == (if country == Some(World) then TopicHeadlines(World) else TopNews)
  {
    if country.Some? {
      var c := country.value;
      assert c in Countries;
      if c != World {
        assert c[0] != 'W' || |c| != 5;
        assert Upper(c)[0] == UpperChar(c[0]);
      }
    }
  }

  /** The client `/fetch_trends` configures: the defaulted language and the
      country exactly as given; the listing follows the routing rule. */
  lemma PlanTopFetchChoices(q: Query)
    ensures PlanTopFetch(q).0.lang == (if q.lang.Some? && q.lang.value != "" then q.lang.value else "en")
    ensures PlanTopFetch(q).0.country == q.country
    ensures PlanTopFetch(q).1 == TopicHeadlines("WORLD") <==> IsWorld(q.country)
    ensures PlanTopFetch(q).1 == TopNews <==> !IsWorld(q.country)
  {
  }

  /** A successful fetch gives the feed's title and the first `limit`
      entries, each copied into an article, in feed order. */
  lemma FetchTrendsSucceeds(q: Query, fetch: Fetcher, feed: Feed)
    requires Violations(q.lang, q.country, q.limit) == []
    requires fetch(PlanTopFetch(q).0, PlanTopFetch(q).1) == Ok(feed)
    ensures var r := FetchTrends(q, fetch);
      && r.Reply?
      && r.body.feedTitle == feed.title
      && var n := q.limit.GetOr(DefaultLimit);
      && |r.body.articles| == (if n < |feed.entries| then n else |feed.entries|)
      && forall i :: 0 <= i < |r.body.articles| ==> r.body.articles[i] == ToHeadline(feed.entries[i])
  {
    var r := FetchTrends(q, fetch);
    var limit := q.limit.GetOr(DefaultLimit);
    assert 1 <= limit;
    var hs := Headlines(feed.entries, limit);
    assert r.body.articles == hs;
    forall i | 0 <= i < |hs|
      ensures hs[i] == ToHeadline(feed.entries[i])
    {
    }
  }

  /** A failing fetch gives one status-500 error carrying the failure's
      text, and nothing else. */
  lemma FetchTrendsFails(q: Query, fetch: Fetcher, e: string)
    requires Violations(q.lang, q.country, q.limit) == []
    requires fetch(PlanTopFetch(q).0, PlanTopFetch(q).1) == Err(e)
    ensures FetchTrends(q, fetch) == ServerError(500, FetchErrorPrefix + e)
  {
  }

  /** A failing search gives one status-500 error carrying the failure's
      text, and no articles. */
  lemma FetchTrendsByTopicFails(topic: string, q: Query, fetch: Fetcher, e: string)
    requires Violations(q.lang, q.country, q.limit) == []
    requires fetch(PlanTopicFetch(topic, q).0, Search(topic)) == Err(e)
    ensures FetchTrendsByTopic(topic, q, fetch) == ServerError(500, FetchErrorPrefix + e)
  {
  }

  /** A failing fetch in `/update_trends` gives one status-500 error
      carrying the failure's text. */
  lemma UpdateTrendsFails(lang: Option<string>, country: Option<string>, fetch: Fetcher, e: string)
    requires LangAccepted(lang) && CountryAccepted(country)
    requires fetch(Client(DefaultLang(lang), country), Route(country)) == Err(e)
    ensures UpdateTrends(lang, country, fetch) == ServerError(500, UpdateErrorPrefix + e)
  {
  }

  /** The topic endpoint searches for the topic name under every query. */
  lemma TopicAlwaysSearches(topic: string, q: Query, fetch: Fetcher, feed: Feed)
    requires Violations(q.lang, q.country, q.limit) == []
    requires fetch(PlanTopicFetch(topic, q).0, Search(topic)) == Ok(feed)
    ensures PlanTopicFetch(topic, q).1 == Search(topic)
    ensures FetchTrendsByTopic(topic, q, fetch) == Reply(Shape(feed, q.limit.GetOr(DefaultLimit)))
  {
  }

  /** `/update_trends` answers with exactly the fixed message and the
      feed's title. */
  lemma UpdateTrendsReply(lang: Option<string>, country: Option<string>, fetch: Fetcher, feed: Feed)
    requires LangAccepted(lang) && CountryAccepted(country)
    requires fetch(Client(DefaultLang(lang), country), Route(country)) == Ok(feed)
    ensures UpdateTrends(lang, country, fetch) == Reply(UpdateReply("Trends updated", feed.title))
  {
  }
}

=== FILE: feeds.dfy ===
/** The feed values the endpoints receive from the news library, the
    response shape both backends share, and the decisions every endpoint
    makes before it calls that library: the language default, the country
    passed on, and which listing to ask for. */
module Feeds {
  import opened Wrappers

  /** One feed entry. `summary` is `None` when the entry has no summary key. */
  datatype Entry = Entry(
    title: string,
    link: string,
    published: string,
    sourceTitle: string,
    summary: Option<string>)

  /** A fetched listing: the feed's title and its entries in feed order. */
  datatype Feed = Feed(title: string, entries: seq<Entry>)

  /** The configuration of a `GoogleNews(lang=..., country=...)` client. */
  datatype Client = Client(lang: string, country: Option<string>)

  /** The listing asked of the client. */
  datatype Request = TopNews | TopicHeadlines(topic: string) | Search(query: string)

  /** The news library itself, left uninterpreted: given a client and a
      request it returns a feed or fails with the text of the exception. */
  type Fetcher = (Client, Request) -> Result<Feed, string>

  /** A query parameter the framework rejects before a handler runs. */
  datatype Invalid = BadLang | BadCountry | BadLimit

  /** The HTTP outcome of a handler, in both backends: the body, a rejection
      of the query (status 422) listing the offending parameters, or a
      server error with its status and detail text. */
  datatype Response<T> = Reply(body: T) | Unprocessable(errors: seq<Invalid>) | ServerError(status: int, detail: string)

  /** The language used when none is given. */
  const DefaultLanguage: string := "en"

  /** The country code that selects the world headlines. */
  const World: string := "WORLD"

  /** `lang if lang else "en"`: an absent or empty language becomes "en",
      any other is kept. */
  function DefaultLang(lang: Option<string>): (r: string)
    ensures r != ""
    ensures lang.Some? && lang.value != "" ==> r == lang.value
    ensures lang.None? || lang.value == "" ==> r == DefaultLanguage
  {
    if lang.Some? && lang.value != "" then lang.value else DefaultLanguage
  }

  /** Python's `str.upper` on one character, for the ASCII letters. */
  function UpperChar(c: char): (u: char)
    ensures 'a' <= c <= 'z' ==> u as int == c as int - 32
    ensures !('a' <= c <= 'z') ==> u == c
  {
    if 'a' <= c <= 'z' then (c as int - 32) as char else c
  }

  /** `s.upper()`, character by character. */
  function Upper(s: string): (r: string)
    ensures |r| == |s|
    ensures forall i :: 0 <= i < |s| ==> r[i] == UpperChar(s[i])
  {
    if |s| == 0 then "" else [UpperChar(s[0])] + Upper(s[1..])
  }

  /** Upper-casing twice is upper-casing once. */
  lemma UpperIdempotent(s: string)
    ensures Upper(Upper(s)) == Upper(s)
  {
  }

  /** `country and country.upper() == "WORLD"`. */
  predicate IsWorld(country: Option<string>) {
    country.Some? && country.value != "" && Upper(country.value) == World
  }

  /** `effective_country`: both arms of its conditional give `country`. */
  function EffectiveCountry(country: Option<string>): (r: Option<string>)
    ensures r == country
  {
    if IsWorld(country) then country else country
  }

  /** The listing the top-level endpoints ask for: the "WORLD" topic
      headlines for the world code in any letter case, the top news for any
      other code and for no code at all. */
  function Route(country: Option<string>): (r: Request)
    ensures r == TopicHeadlines(World) || r == TopNews
    ensures r.TopicHeadlines? <==> IsWorld(country)
  {
    if IsWorld(country) then TopicHeadlines(World) else TopNews
  }

  /** Routing ignores letter case. */
  lemma RouteIgnoresCase(c: string)
    ensures Route(Some(c)) == Route(Some(Upper(c)))
  {
    UpperIdempotent(c);
  }

  /** Python's `xs[:n]`: the first `n` elements, all of them when `n` is
      larger, and all but the last `-n` when `n` is negative. */
  function Take<T>(xs: seq<T>, n: int): (r: seq<T>)
    ensures r <= xs
    ensures n >= 0 ==> |r| == if n < |xs| then n else |xs|
    ensures n < 0 ==> |r| == if |xs| + n > 0 then |xs| + n else 0
  {
    if n >= |xs| then xs
    else if n >= 0 then xs[..n]
    else if |xs| + n > 0 then xs[..|xs| + n]
    else []
  }

  /** The article of main.py: the entry's fields, and its source's title. */
  datatype Headline = Headline(title: string, link: string, published: string, source: string)

  function ToHeadline(e: Entry): Headline {
    Headline(e.title, e.link, e.published, e.sourceTitle)
  }

  /** The articles built from the first `limit` entries, in feed order. */
  function Headlines(entries: seq<Entry>, limit: int): (r: seq<Headline>)
    ensures limit >= 0 ==> |r| == if limit < |entries| then limit else |entries|
    ensures |r| <= |entries|
    ensures forall i :: 0 <= i < |r| ==>
      r[i].title == entries[i].title && r[i].link == entries[i].link &&
      r[i].published == entries[i].published && r[i].source == entries[i].sourceTitle
  {
    var kept := Take(entries, limit);
    seq(|kept|, i requires 0 <= i < |kept| => ToHeadline(kept[i]))
  }
}

=== FILE: query_string.dfy ===
/** The request URL built by `call_api` in backend/app/app.py: the API base
    URL and the endpoint, then, when parameters are given, a `?` and the
    `key=value` pairs whose value is truthy, joined with `&`, with no
    percent-encoding. */
module QueryString {
  import opened Wrappers
  import opened Strings

  /** The base URL of the API. */
  const ApiUrl: string := "http://127.0.0.1:8000"

  /** A parameter value as the dashboard passes it: `None`, a string or an
      integer. */
  datatype Value = NoneValue | Text(s: string) | Number(n: int)

  /** Python truthiness: `None`, the empty string and zero are false. */
  predicate Truthy(v: Value)
    ensures Truthy(v) ==> Render(v) != ""
  {
    match v
    case NoneValue => false
    case Text(s) => s != ""
    case Number(n) => n != 0
  }

  /** A decimal digit. */
  function DigitChar(d: nat): (c: char)
    requires d < 10
    ensures '0' <= c <= '9'
  {
    (('0' as int) + d) as char
  }

  /** The decimal digits of `n`, most significant first, without leading
      zeros. */
  function NatDigits(n: nat): (r: string)
    ensures |r| > 0
    ensures forall i :: 0 <= i < |r| ==> '0' <= r[i] <= '9'
    ensures r[0] == '0' ==> n == 0
    decreases n
  {
    if n < 10 then [DigitChar(n)] else NatDigits(n / 10) + [DigitChar(n % 10)]
  }

  /** `str(n)` for an integer. */
  function DecimalString(n: int): (r: string)
    ensures |r| > 0
    ensures forall i :: 0 <= i < |r| ==> '0' <= r[i] <= '9' || (i == 0 && r[i] == '-')
  {
    if n < 0 then "-" + NatDigits(-n) else NatDigits(n)
  }

  /** The value of a string of decimal digits. */
  function ParseNat(s: string): nat
    requires forall i :: 0 <= i < |s| ==> '0' <= s[i] <= '9'
  {
    if |s| == 0 then 0
    else ParseNat(s[..|s| - 1]) * 10 + ((s[|s| - 1] as int) - ('0' as int))
  }

  /** Reads back an integer written by `DecimalString`. */
  function ParseInt(s: string): Option<int> {
    if |s| > 0 && s[0] == '-' && forall i :: 1 <= i < |s| ==> '0' <= s[i] <= '9' then
      var m: int := ParseNat(s[1..]); Some(-m)
    else if forall i :: 0 <= i < |s| ==> '0' <= s[i] <= '9' then Some(ParseNat(s))
    else None
  }

  lemma {:induction false} NatDigitsRoundTrip(n: nat)
    ensures ParseNat(NatDigits(n)) == n
    decreases n
  {
    if n >= 10 {
      NatDigitsRoundTrip(n / 10);
      var s := NatDigits(n);
      assert s[..|s| - 1] == NatDigits(n / 10);
    }
  }

  /** Integers are written in a form that reads back as the same integer. */
  lemma DecimalRoundTrip(n: int)
    ensures ParseInt(DecimalString(n)) == Some(n)
  {
    if n < 0 {
      NegativeRoundTrip(-n);
    } else {
      NatRoundTrip(n);
    }
  }

  lemma NegativeRoundTrip(m: nat)
    requires m > 0
    ensures ParseInt("-" + NatDigits(m)) == Some(-(m as int))
  {
    var d := NatDigits(m);
    var s := "-" + d;
    assert s[0] == '-';
    assert s[1..] == d;
    forall i | 1 <= i < |s|
      ensures '0' <= s[i] <= '9'
    {
      assert s[i] == d[i - 1];
    }
    NatDigitsRoundTrip(m);
  }

  lemma NatRoundTrip(n: nat)
    ensures ParseInt(NatDigits(n)) == Some(n)
  {
    var d := NatDigits(n);
    assert d[0] != '-';
    NatDigitsRoundTrip(n);
  }

  /** `f"{v}"`. */
  function Render(v: Value): (r: string)
    ensures v.Number? ==> r == DecimalString(v.n)
    ensures v.Text? ==> r == v.s
    ensures v.NoneValue? ==> r == "None"
  {
    match v
    case NoneValue => "None"
    case Text(s) => s
    case Number(n) => DecimalString(n)
  }

  /** The pairs the comprehension keeps, in input order, with their values
      rendered. */
  function Kept(params: seq<(string, Value)>): (r: seq<(string, string)>)
    ensures |r| <= |params|
    ensures forall i :: 0 <= i < |r| ==> r[i].1 != ""
  {
    if |params| == 0 then []
    else (if Truthy(params[0].1) then [(params[0].0, Render(params[0].1))] else []) + Kept(params[1..])
  }

  /** Filtering distributes over concatenation: the kept pairs of two runs
      of parameters are those of the first run followed by those of the
      second, so the input order is kept. */
  lemma {:induction false} KeptAppend(a: seq<(string, Value)>, b: seq<(string, Value)>)
    ensures Kept(a + b) == Kept(a) + Kept(b)
  {
    if |a| > 0 {
      assert (a + b)[0] == a[0];
      assert (a + b)[1..] == a[1..] + b;
      KeptAppend(a[1..], b);
    } else {
      assert a + b == b;
    }
  }

  /** One parameter is kept, rendered, exactly when its value is truthy. */
  lemma KeptOne(p: (string, Value))
    ensures Truthy(p.1) ==> Kept([p]) == [(p.0, Render(p.1))]
    ensures !Truthy(p.1) ==> Kept([p]) == []
  {
    assert [p][1..] == [];
  }

  /** Each kept pair written as `key=value`. */
  function Written(pairs: seq<(string, string)>): (r: seq<string>)
    ensures |r| == |pairs|
  {
    seq(|pairs|, i requires 0 <= i < |pairs| => pairs[i].0 + "=" + pairs[i].1)
  }

  /** The query part `call_api` writes for `params`. */
  function Query(params: seq<(string, Value)>): (r: string)
    ensures r == "" <==> Kept(params) == []
  {
    QueryEmpty(params);
    Join("&", Written(Kept(params)))
  }

  /** The written query is empty exactly when no pair is kept. */
  lemma QueryEmpty(params: seq<(string, Value)>)
    ensures Join("&", Written(Kept(params))) == "" <==> Kept(params) == []
  {
    var w := Written(Kept(params));
    if |w| > 0 {
      JoinLength("&", w);
      TotalLengthPositive(w);
    }
  }

  /** The URL `call_api` requests for `endpoint` and `params` (`None` when
      no parameters are passed). */
  function BuildUrl(endpoint: string, params: Option<seq<(string, Value)>>): (r: string)
    ensures params.None? || params.value == [] ==> r == ApiUrl + endpoint
    ensures params.Some? && params.value != [] ==> ApiUrl + endpoint + "?" <= r
  {
    var url := ApiUrl + endpoint;
    if params.Some? && params.value != [] then url + "?" + Query(params.value)
    else url
  }

  /** Parameters that are all falsy leave a bare `?` at the end. */
  lemma AllFalsyLeavesQuestionMark(endpoint: string, params: seq<(string, Value)>)
    requires params != []
    requires forall i :: 0 <= i < |params| ==> !Truthy(params[i].1)
    ensures BuildUrl(endpoint, Some(params)) == ApiUrl + endpoint + "?"
  {
    AllFalsyKeepsNothing(params);
  }

  lemma {:induction false} AllFalsyKeepsNothing(params: seq<(string, Value)>)
    requires forall i :: 0 <= i < |params| ==> !Truthy(params[i].1)
    ensures Kept(params) == []
  {
    if |params| > 0 {
      AllFalsyKeepsNothing(params[1..]);
    }
  }

  /** All truthy pairs are kept, in order, with their values rendered. */
  lemma {:induction false} AllTruthyKeepsAll(params: seq<(string, Value)>)
    requires forall i :: 0 <= i < |params| ==> Truthy(params[i].1)
    ensures |Kept(params)| == |params|
    ensures forall i :: 0 <= i < |params| ==> Kept(params)[i] == (params[i].0, Render(params[i].1))
  {
    if |params| > 0 {
      AllTruthyKeepsAll(params[1..]);
    }
  }

  /** A reader of a query string that splits at `&`, then each piece at its
      first `=`, and decodes nothing. */
  function ParseQuery(q: string): seq<(string, string)> {
    if q == "" then []
    else
      var pieces := SplitOn(q, '&');
      seq(|pieces|, i requires 0 <= i < |pieces| => ParsePair(pieces[i]))
  }

  function ParsePair(piece: string): (string, string) {
    var k := IndexOf(piece, '=');
    if k == |piece| then (piece, "") else (piece[..k], piece[k + 1..])
  }

  /** The query part of a URL: everything after the first `?`. */
  function QueryOf(url: string): string {
    var k := IndexOf(url, '?');
    if k == |url| then "" else url[k + 1..]
  }

  /** The pairs this reader reads back are exactly the kept pairs, as long as
      no key holds `&` or `=` and no value holds `&`: this is all the
      protection there is, since nothing is percent-encoded. */
  lemma ParseEncodedPairs(pairs: seq<(string, string)>)
    requires forall i :: 0 <= i < |pairs| ==> SafePair(pairs[i])
    ensures ParseQuery(Join("&", Written(pairs))) == pairs
  {
    var pieces := Written(pairs);
    if |pieces| > 0 {
      forall i | 0 <= i < |pieces|
        ensures Free(pieces[i], '&')
      {
        assert pieces[i] == pairs[i].0 + "=" + pairs[i].1;
      }
      SplitJoin(pieces, '&');
      assert Join("&", pieces) != "" by {
        JoinLength("&", pieces);
        assert |pieces[0]| > 0;
        TotalLengthPositive(pieces);
      }
      forall i | 0 <= i < |pieces|
        ensures ParsePair(pieces[i]) == pairs[i]
      {
        assert pieces[i] == pairs[i].0 + ['='] + pairs[i].1;
        ParseWrittenPair(pairs[i].0, pairs[i].1);
      }
    }
  }

  /** A piece `key=value` whose key holds no `=` splits back into its key
      and value. */
  lemma ParseWrittenPair(key: string, value: string)
    requires Free(key, '=')
    ensures ParsePair(key + ['='] + value) == (key, value)
  {
    var piece := key + ['='] + value;
    FirstThenSep(key, value, '=');
    assert piece[..|key|] == key;
    assert piece[|key| + 1..] == value;
  }

  lemma TotalLengthPositive(xs: seq<string>)
    requires |xs| > 0 && |xs[0]| > 0
    ensures TotalLength(xs) > 0
  {
  }

  /** Because values are inserted verbatim, a value `a&k2=v2` reads back
      as two parameters: `key=a` and a second, injected `k2=v2`. */
  lemma AmpersandInjectsParameter(key: string, a: string, k2: string, v2: string)
    requires Free(key, '&') && Free(key, '=') && Free(a, '&')
    requires Free(k2, '&') && Free(k2, '=') && Free(v2, '&')
    ensures ParseQuery(Join("&", Written([(key, a + "&" + k2 + "=" + v2)])))
         == [(key, a), (k2, v2)]
  {
    var first := key + "=" + a;
    var second := k2 + "=" + v2;
    var q := Join("&", Written([(key, a + "&" + k2 + "=" + v2)]));
    assert q == first + "&" + second;
    assert Join("&", [first, second]) == first + "&" + second;
    assert Free(first, '&') by { FreeConcat(key, "=", a, '&'); }
    assert Free(second, '&') by { FreeConcat(k2, "=", v2, '&'); }
    SplitJoin([first, second], '&');
    assert q != "";
    assert ParseQuery(q) == [ParsePair(first), ParsePair(second)];
    ParseWrittenPair(key, a);
    ParseWrittenPair(k2, v2);
  }

  lemma FreeConcat(x: string, y: string, z: string, c: char)
    requires Free(x, c) && Free(y, c) && Free(z, c)
    ensures Free(x + y + z, c)
  {
    var s := x + y + z;
    forall i | 0 <= i < |s|
      ensures s[i] != c
    {
      if i < |x| {
        assert s[i] == x[i];
      } else if i < |x| + |y| {
        assert s[i] == y[i - |x|];
      } else {
        assert s[i] == z[i - |x| - |y|];
      }
    }
  }

  /** Every pair `Kept` produces satisfies what holds of every parameter. */
  lemma {:induction false} KeptSafe(params: seq<(string, Value)>)
    requires forall i :: 0 <= i < |params| ==> Safe(params[i])
    ensures forall i :: 0 <= i < |Kept(params)| ==> SafePair(Kept(params)[i])
  {
    if |params| > 0 {
      KeptSafe(params[1..]);
      if params[0].1.Number? {
        var d := DecimalString(params[0].1.n);
        assert Free(d, '&');
      }
    }
  }

  /** A written pair that survives the trip: the key holds neither `&` nor
      `=`, the value holds no `&`. */
  predicate SafePair(p: (string, string)) {
    Free(p.0, '&') && Free(p.0, '=') && Free(p.1, '&')
  }

  /** A parameter that survives the trip: its key holds neither `&` nor `=`,
      and a string value holds no `&` (an integer never does). */
  predicate Safe(p: (string, Value)) {
    Free(p.0, '&') && Free(p.0, '=') && (p.1.Text? ==> Free(p.1.s, '&'))
  }

  lemma ApiUrlHasNoQuery()
    ensures Free(ApiUrl, '?')
  {
    forall i | 0 <= i < |ApiUrl|
      ensures ApiUrl[i] != '?'
    {
      if i < 7 {} else if i < 14 {} else {}
    }
  }

  /** Reading the query part of the requested URL with ParseQuery gives back exactly
      the truthy parameters, in order, with their values rendered, provided
      the endpoint holds no `?` and every parameter is `Safe`. */
  lemma UrlRoundTrip(endpoint: string, params: seq<(string, Value)>)
    requires Free(endpoint, '?')
    requires params != []
    requires forall i :: 0 <= i < |params| ==> Safe(params[i])
    ensures ParseQuery(QueryOf(BuildUrl(endpoint, Some(params)))) == Kept(params)
  {
    QueryOfBuilt(endpoint, params);
    ParseKept(params);
  }

  lemma ParseKept(params: seq<(string, Value)>)
    requires forall i :: 0 <= i < |params| ==> Safe(params[i])
    ensures ParseQuery(Query(params)) == Kept(params)
  {
    KeptSafe(params);
    ParseEncodedPairs(Kept(params));
  }

  lemma QueryOfBuilt(endpoint: string, params: seq<(string, Value)>)
    requires Free(endpoint, '?')
    requires params != []
    ensures QueryOf(BuildUrl(endpoint, Some(params))) == Query(params)
  {
    ApiUrlHasNoQuery();
    FreeConcat(ApiUrl, endpoint, "", '?');
    assert ApiUrl + endpoint + "" == ApiUrl + endpoint;
    QueryAfterMark(ApiUrl + endpoint, Query(params));
  }

  lemma QueryAfterMark(base: string, query: string)
    requires Free(base, '?')
    ensures QueryOf(base + "?" + query) == query
  {
    FirstThenSep(base, query, '?');
    assert base + "?" + query == base + ['?'] + query;
    assert (base + ['?'] + query)[|base| + 1..] == query;
  }
}

=== FILE: strings.dfy ===
/** Joining and splitting strings on a one-character separator, as Python's
    `sep.join(xs)` and `s.split(sep)` do. */
module Strings {

  /** `sep.join(xs)`: the pieces in order with `sep` between neighbours. */
  function Join(sep: string, xs: seq<string>): (r: string)
    ensures |xs| == 0 ==> r == ""
    ensures |xs| == 1 ==> r == xs[0]
  {
    if |xs| == 0 then ""
    else if |xs| == 1 then xs[0]
    else xs[0] + sep + Join(sep, xs[1..])
  }

  /** Total length of the pieces. */
  function TotalLength(xs: seq<string>): nat {
    if |xs| == 0 then 0 else |xs[0]| + TotalLength(xs[1..])
  }

  /** The joined string holds every piece and one separator between each pair. */
  lemma {:induction false} JoinLength(sep: string, xs: seq<string>)
    requires |xs| > 0
    ensures |Join(sep, xs)| == TotalLength(xs) + (|xs| - 1) * |sep|
  {
    if |xs| > 1 {
      JoinLength(sep, xs[1..]);
    }
  }

  /** Joining one more piece appends the separator and the piece. */
  lemma {:induction false} JoinSnoc(sep: string, xs: seq<string>, x: string)
    requires |xs| > 0
    ensures Join(sep, xs + [x]) == Join(sep, xs) + sep + x
  {
    if |xs| > 1 {
      assert (xs + [x])[1..] == xs[1..] + [x];
      JoinSnoc(sep, xs[1..], x);
    } else {
      assert xs + [x] == [xs[0], x];
      assert [xs[0], x][1..] == [x];
    }
  }

  /** True when `c` does not occur in `s`. */
  predicate Free(s: string, c: char) {
    forall i :: 0 <= i < |s| ==> s[i] != c
  }

  /** Index of the first `c` in `s`, or `|s|` when there is none. */
  function IndexOf(s: string, c: char): (k: nat)
    ensures k <= |s|
    ensures Free(s[..k], c)
    ensures k < |s| ==> s[k] == c
  {
    if |s| == 0 then 0
    else if s[0] == c then 0
    else 1 + IndexOf(s[1..], c)
  }

  /** `s.split(c)`: the maximal `c`-free pieces, always at least one. */
  function SplitOn(s: string, c: char): (r: seq<string>)
    ensures |r| >= 1
    ensures forall i :: 0 <= i < |r| ==> Free(r[i], c)
    decreases |s|
  {
    var k := IndexOf(s, c);
    if k == |s| then [s] else [s[..k]] + SplitOn(s[k + 1..], c)
  }

  /** Splitting a join on its separator gives back the pieces, provided no
      piece contains the separator. */
  lemma {:induction false} SplitJoin(xs: seq<string>, c: char)
    requires |xs| >= 1
    requires forall i :: 0 <= i < |xs| ==> Free(xs[i], c)
    ensures SplitOn(Join([c], xs), c) == xs
  {
    var s := Join([c], xs);
    FirstFree(xs[0], c);
    if |xs| == 1 {
      assert IndexOf(s, c) == |s|;
    } else {
      assert s == xs[0] + [c] + Join([c], xs[1..]);
      FirstThenSep(xs[0], Join([c], xs[1..]), c);
      var k := IndexOf(s, c);
      assert k == |xs[0]|;
      assert s[..k] == xs[0];
      assert s[k + 1..] == Join([c], xs[1..]);
      SplitJoin(xs[1..], c);
      assert xs == [xs[0]] + xs[1..];
    }
  }

  /** A string free of `c` has no `c` to find. */
  lemma {:induction false} FirstFree(s: string, c: char)
    requires Free(s, c)
    ensures IndexOf(s, c) == |s|
  {
    if |s| > 0 {
      assert Free(s[1..], c);
      FirstFree(s[1..], c);
    }
  }

  /** In `a + [c] + b` with `a` free of `c`, the first `c` ends `a`. */
  lemma {:induction false} FirstThenSep(a: string, b: string, c: char)
    requires Free(a, c)
    ensures IndexOf(a + [c] + b, c) == |a|
  {
    if |a| > 0 {
      assert (a + [c] + b)[1..] == a[1..] + [c] + b;
      assert Free(a[1..], c);
      FirstThenSep(a[1..], b, c);
    }
  }
}

=== FILE: summary.dfy ===
/** The one-line summariser of backend/app/trend_analysis.py: tags are
    removed with the non-greedy pattern `<.*?>`, the remainder is split with
    `(?<=[.!?]) +` and the first piece is the summary. Both passes follow the
    semantics of Python's `re` module: `.` never matches a newline, matches
    are found left to right and never overlap. */
module Summary {

  /** The fixed text returned for an empty input. */
  const Placeholder: string := "No summary available."

  // ---------------------------------------------------------------------
  // Tag stripping: re.sub(r'<.*?>', '', text)
  // ---------------------------------------------------------------------

  /** Where a tag opened just before `t` closes: `ClosesAt(k)` when `t[k]` is
      the first `>` and no newline comes before it, `Open` when a newline or
      the end of the text comes first (the `<` then starts no match). */
  datatype Close = Open | ClosesAt(k: nat)

  function CloseOf(t: string): (r: Close)
    ensures r.ClosesAt? ==> r.k < |t| && t[r.k] == '>'
  {
    if |t| == 0 then Open
    else if t[0] == '>' then ClosesAt(0)
    else if t[0] == '\n' then Open
    else match CloseOf(t[1..])
      case ClosesAt(k) => ClosesAt(k + 1)
      case Open => Open
  }

  /** A tag closes at the first `>` when no newline comes before it; it
      stays open when every `>` has a newline before it. */
  lemma {:induction false} CloseOfMeaning(t: string)
    ensures CloseOf(t).ClosesAt? ==>
      forall i :: 0 <= i < CloseOf(t).k ==> t[i] != '>' && t[i] != '\n'
    ensures CloseOf(t).Open? ==>
      forall i :: 0 <= i < |t| && t[i] == '>' ==> '\n' in t[..i]
  {
    if |t| > 0 && t[0] != '>' && t[0] != '\n' {
      CloseOfMeaning(t[1..]);
      if CloseOf(t).Open? {
        forall i | 0 <= i < |t| && t[i] == '>'
          ensures '\n' in t[..i]
        {
          assert t[1..][i - 1] == '>';
          assert t[..i] == [t[0]] + t[1..][..i - 1];
        }
      } else {
        forall i | 0 <= i < CloseOf(t).k
          ensures t[i] != '>' && t[i] != '\n'
        {
          if i > 0 {
            assert t[i] == t[1..][i - 1];
          }
        }
      }
    }
  }

  /** The scan decides the close position from the characters alone: the
      first `>` or newline after the `<` settles it. */
  lemma CloseOfScan(t: string, k: nat)
    requires k <= |t|
    requires forall i :: 0 <= i < k ==> t[i] != '>' && t[i] != '\n'
    requires k == |t| || t[k] == '>' || t[k] == '\n'
    ensures k < |t| && t[k] == '>' ==> CloseOf(t) == ClosesAt(k)
    ensures !(k < |t| && t[k] == '>') ==> CloseOf(t) == Open
  {
    CloseOfMeaning(t);
  }

  /** re.sub(r'<.*?>', '', s): every `<` that has a `>` later on its line is
      removed together with everything up to the first such `>`; every other
      character is kept. */
  function StripTags(s: string): (r: string)
    ensures |r| <= |s|
    decreases |s|
  {
    if |s| == 0 then ""
    else if s[0] == '<' then
      match CloseOf(s[1..])
      case ClosesAt(k) => StripTags(s[k + 2..])
      case Open => [s[0]] + StripTags(s[1..])
    else [s[0]] + StripTags(s[1..])
  }

  /** No `<` in `r` is followed on its own line by a `>`: the pattern
      `<.*?>` has nothing left to match. */
  predicate Untagged(r: string) {
    forall i :: 0 <= i < |r| && r[i] == '<' ==> CloseOf(r[i + 1..]).Open?
  }

  /** Stripping keeps the property "no `>` before the next newline" of the
      text that follows a kept `<`. */
  lemma {:induction false} OpenSurvivesStrip(t: string)
    requires CloseOf(t).Open?
    ensures CloseOf(StripTags(t)).Open?
    decreases |t|
  {
    if |t| > 0 && t[0] != '\n' {
      assert t[0] != '>';
      assert CloseOf(t[1..]).Open?;
      OpenSurvivesStrip(t[1..]);
    }
  }

  /** After stripping, no tag is left. */
  lemma {:induction false} StripTagsUntagged(s: string)
    ensures Untagged(StripTags(s))
    decreases |s|
  {
    if |s| > 0 {
      if s[0] == '<' && CloseOf(s[1..]).ClosesAt? {
        StripTagsUntagged(s[CloseOf(s[1..]).k + 2..]);
      } else {
        var rest := StripTags(s[1..]);
        assert StripTags(s) == [s[0]] + rest;
        StripTagsUntagged(s[1..]);
        if s[0] == '<' {
          OpenSurvivesStrip(s[1..]);
        }
        ConsUntagged(s[0], rest);
      }
    }
  }

  /** A character in front of untagged text keeps it untagged, unless it is
      a `<` the text closes. */
  lemma ConsUntagged(c: char, rest: string)
    requires Untagged(rest)
    requires c == '<' ==> CloseOf(rest).Open?
    ensures Untagged([c] + rest)
  {
    var r := [c] + rest;
    forall i | 0 <= i < |r| && r[i] == '<'
      ensures CloseOf(r[i + 1..]).Open?
    {
      if i == 0 {
        assert r[1..] == rest;
      } else {
        assert r[i + 1..] == rest[i..];
        assert rest[i - 1] == '<';
      }
    }
  }

  /** Text without tags passes through stripping unchanged. */
  lemma {:induction false} UntaggedFixpoint(t: string)
    requires Untagged(t)
    ensures StripTags(t) == t
    decreases |t|
  {
    if |t| > 0 {
      assert Untagged(t[1..]) by {
        forall i | 0 <= i < |t[1..]| && t[1..][i] == '<'
          ensures CloseOf(t[1..][i + 1..]).Open?
        {
          assert t[1..][i + 1..] == t[i + 2..];
          assert t[i + 1] == '<';
        }
      }
      UntaggedFixpoint(t[1..]);
    }
  }

  /** Stripping twice is stripping once. */
  lemma StripTagsIdempotent(s: string)
    ensures StripTags(StripTags(s)) == StripTags(s)
  {
    StripTagsUntagged(s);
    UntaggedFixpoint(StripTags(s));
  }

  /** Number of occurrences of `c` in `s`. */
  function CharCount(s: string, c: char): nat {
    if |s| == 0 then 0 else (if s[0] == c then 1 else 0) + CharCount(s[1..], c)
  }

  lemma {:induction false} CountAppend(a: string, b: string, c: char)
    ensures CharCount(a + b, c) == CharCount(a, c) + CharCount(b, c)
  {
    if |a| > 0 {
      assert (a + b)[0] == a[0];
      assert (a + b)[1..] == a[1..] + b;
      CountAppend(a[1..], b, c);
    } else {
      assert a + b == b;
    }
  }

  lemma {:induction false} CountAbsent(a: string, c: char)
    requires forall i :: 0 <= i < |a| ==> a[i] != c
    ensures CharCount(a, c) == 0
  {
    if |a| > 0 {
      CountAbsent(a[1..], c);
    }
  }

  /** A removed span never holds a newline, so stripping keeps every line
      break of the input. */
  lemma {:induction false} StripTagsKeepsNewlines(s: string)
    ensures CharCount(StripTags(s), '\n') == CharCount(s, '\n')
    decreases |s|
  {
    if |s| > 0 {
      if s[0] == '<' && CloseOf(s[1..]).ClosesAt? {
        var k := CloseOf(s[1..]).k;
        CloseOfMeaning(s[1..]);
        assert s == s[..k + 2] + s[k + 2..];
        CountAppend(s[..k + 2], s[k + 2..], '\n');
        CountAbsent(s[..k + 2], '\n');
        StripTagsKeepsNewlines(s[k + 2..]);
      } else {
        StripTagsKeepsNewlines(s[1..]);
      }
    }
  }

  /** One step of the scan at a `<` whose tag closes at `j`: the whole tag
      is dropped. */
  lemma StripStepTag(s: string, i: nat, j: nat)
    requires i < j < |s| && s[i] == '<'
    requires CloseOf(s[i + 1..]) == ClosesAt(j - i - 1)
    ensures StripTags(s[i..]) == StripTags(s[j + 1..])
  {
    assert s[i..][1..] == s[i + 1..];
    assert s[i..][j - i + 1..] == s[j + 1..];
  }

  /** One step of the scan at a character that starts no tag: it is kept. */
  lemma StripStepKeep(s: string, i: nat)
    requires i < |s|
    requires s[i] != '<' || CloseOf(s[i + 1..]).Open?
    ensures StripTags(s[i..]) == [s[i]] + StripTags(s[i + 1..])
  {
    assert s[i..][1..] == s[i + 1..];
  }

  /** Scans forward from the `<` at `i` to the first `>` or newline. */
  method FindClose(s: string, i: nat) returns (j: nat)
    requires i < |s| && s[i] == '<'
    ensures i < j <= |s|
    ensures j < |s| && s[j] == '>' ==> CloseOf(s[i + 1..]) == ClosesAt(j - i - 1)
    ensures !(j < |s| && s[j] == '>') ==> CloseOf(s[i + 1..]).Open?
  {
    j := i + 1;
    while j < |s| && s[j] != '>' && s[j] != '\n'
      invariant i + 1 <= j <= |s|
      invariant forall m :: i + 1 <= m < j ==> s[m] != '>' && s[m] != '\n'
    {
      j := j + 1;
    }
    CloseOfScan(s[i + 1..], j - (i + 1));
  }

  /** The left-to-right scan `re.sub` performs, with an explicit cursor: it
      agrees with `StripTags`. */
  method ScanStripTags(s: string) returns (out: string)
    ensures out == StripTags(s)
  {
    out := "";
    var i := 0;
    assert s[i..] == s;
    while i < |s|
      invariant 0 <= i <= |s|
      invariant out + StripTags(s[i..]) == StripTags(s)
      decreases |s| - i
    {
      var next, emitted := ScanStep(s, i);
      StepSplits(s, i);
      Regroup(out, emitted, StripTags(s[next..]));
      out, i := out + emitted, next;
    }
  }

  /** A solver helper, not a property of tag stripping: concatenation
      regroups, and as a lemma of its own it keeps the loop body's proof
      within its resource budget. */
  lemma Regroup(a: string, b: string, c: string)
    ensures (a + b) + c == a + (b + c)
  {
  }

  /** Where the scan resumes after position `i`: past the tag when a tag
      starts there, else at the next character. */
  function StepEnd(s: string, i: nat): (next: nat)
    requires i < |s|
    ensures i < next <= |s|
  {
    if s[i] == '<' && CloseOf(s[i + 1..]).ClosesAt? then i + CloseOf(s[i + 1..]).k + 2 else i + 1
  }

  /** What the scan writes for position `i`: nothing for a tag, else the
      character. */
  function StepOutput(s: string, i: nat): string
    requires i < |s|
  {
    if s[i] == '<' && CloseOf(s[i + 1..]).ClosesAt? then [] else [s[i]]
  }

  /** Stripping from `i` is the step's output followed by stripping from
      where the step ends. */
  lemma StepSplits(s: string, i: nat)
    requires i < |s|
    ensures StripTags(s[i..]) == StepOutput(s, i) + StripTags(s[StepEnd(s, i)..])
  {
    if s[i] == '<' && CloseOf(s[i + 1..]).ClosesAt? {
      var j := StepEnd(s, i) - 1;
      StripStepTag(s, i, j);
      assert StripTags(s[j + 1..]) == [] + StripTags(s[j + 1..]);
    } else {
      StripStepKeep(s, i);
    }
  }

  /** One step of the scan at `i`, found by scanning for the closing `>`. */
  method ScanStep(s: string, i: nat) returns (next: nat, emitted: string)
    requires i < |s|
    ensures next == StepEnd(s, i) && emitted == StepOutput(s, i)
  {
    next, emitted := i + 1, [s[i]];
    if s[i] == '<' {
      var j := FindClose(s, i);
      if j < |s| && s[j] == '>' {
        next, emitted := j + 1, [];
      }
    }
  }

  // ---------------------------------------------------------------------
  // First sentence: re.split(r'(?<=[.!?]) +', text)[0]
  // ---------------------------------------------------------------------

  predicate IsEndMark(c: char) {
    c == '.' || c == '!' || c == '?'
  }

  /** The split pattern can start matching at `p`: a space right after an
      end mark. */
  predicate BreakAt(s: string, p: int) {
    1 <= p < |s| && IsEndMark(s[p - 1]) && s[p] == ' '
  }

  /** No position of `s` starts a match of the split pattern. */
  predicate NoBreak(s: string) {
    forall p :: 0 <= p < |s| ==> !BreakAt(s, p)
  }

  /** The leftmost break at or after `from`, or `|s|` when there is none. */
  function FirstBreakFrom(s: string, from: nat): (p: nat)
    requires from <= |s|
    ensures from <= p <= |s|
    ensures p < |s| ==> BreakAt(s, p)
    ensures forall q :: from <= q < p ==> !BreakAt(s, q)
    decreases |s| - from
  {
    if from == |s| then |s|
    else if BreakAt(s, from) then from
    else FirstBreakFrom(s, from + 1)
  }

  /** The leftmost break of `s`, or `|s|`. */
  function FirstBreak(s: string): (p: nat)
    ensures p <= |s|
    ensures p < |s| ==> BreakAt(s, p)
    ensures NoBreak(s[..p])
  {
    var p := FirstBreakFrom(s, 0);
    assert forall q :: 0 <= q < p ==> (BreakAt(s[..p], q) ==> BreakAt(s, q));
    p
  }

  /** End of the run of spaces that starts at `p` (the greedy ` +`). */
  function SpaceRunEnd(s: string, p: nat): (e: nat)
    requires p <= |s|
    ensures p <= e <= |s|
    ensures forall i :: p <= i < e ==> s[i] == ' '
    ensures e == |s| || s[e] != ' '
    decreases |s| - p
  {
    if p < |s| && s[p] == ' ' then SpaceRunEnd(s, p + 1) else p
  }

  /** re.split(r'(?<=[.!?]) +', s): the pieces between the matches. */
  function SplitSentences(s: string): (r: seq<string>)
    ensures |r| >= 1
    decreases |s|
  {
    var p := FirstBreak(s);
    if p == |s| then [s]
    else [s[..p]] + SplitSentences(s[SpaceRunEnd(s, p)..])
  }

  /** Every piece of the split is free of breaks, and every piece but the
      last is non-empty and ends with an end mark. */
  lemma {:induction false} SplitSentencesShape(s: string)
    ensures forall i :: 0 <= i < |SplitSentences(s)| ==> NoBreak(SplitSentences(s)[i])
    ensures forall i :: 0 <= i < |SplitSentences(s)| - 1 ==>
      |SplitSentences(s)[i]| > 0 && IsEndMark(SplitSentences(s)[i][|SplitSentences(s)[i]| - 1])
    decreases |s|
  {
    var p := FirstBreak(s);
    if p < |s| {
      var rest := s[SpaceRunEnd(s, p)..];
      SplitSentencesShape(rest);
      assert SplitSentences(s) == [s[..p]] + SplitSentences(rest);
    }
  }

  /** The first piece of the split is the text up to the first end mark
      that a space follows, or all of it. */
  lemma SplitFirstPiece(s: string)
    ensures SplitSentences(s)[0] == s[..FirstBreak(s)]
  {
  }

  // ---------------------------------------------------------------------
  // generate_summary
  // ---------------------------------------------------------------------

  /** generate_summary(text) of backend/app/trend_analysis.py. */
  function GenerateSummary(text: string): (r: string)
    ensures text == "" ==> r == Placeholder
    ensures text != "" ==> r <= StripTags(text)
    ensures text != "" ==> r == StripTags(text) || BreakAt(StripTags(text), |r|)
    ensures text != "" ==> NoBreak(r)
  {
    if text == "" then Placeholder
    else
      var sentences := SplitSentences(StripTags(text));
      if |sentences| > 0 then sentences[0] else Placeholder
  }

  /** A `<` that starts no match still starts none when the text after it
      is cut short. */
  lemma {:induction false} OpenPrefix(w: string, v: string)
    requires v <= w
    requires CloseOf(w).Open?
    ensures CloseOf(v).Open?
    decreases |v|
  {
    if |v| > 0 && v[0] != '\n' {
      assert v[0] == w[0];
      assert v[1..] <= w[1..];
      OpenPrefix(w[1..], v[1..]);
    }
  }

  /** A prefix of text without tags is itself without tags. */
  lemma UntaggedPrefix(t: string, n: nat)
    requires Untagged(t)
    requires n <= |t|
    ensures Untagged(t[..n])
  {
    var u := t[..n];
    forall i | 0 <= i < |u| && u[i] == '<'
      ensures CloseOf(u[i + 1..]).Open?
    {
      assert t[i] == '<';
      assert u[i + 1..] <= t[i + 1..];
      OpenPrefix(t[i + 1..], u[i + 1..]);
    }
  }

  /** Text without breaks is a single sentence. */
  lemma NoBreakIsOneSentence(t: string)
    requires NoBreak(t)
    ensures FirstBreak(t) == |t|
  {
  }

  /** Non-empty text with no `<` and no break summarises to itself. */
  lemma PlainTextIsStable(t: string)
    requires t != ""
    requires forall i :: 0 <= i < |t| ==> t[i] != '<'
    requires NoBreak(t)
    ensures GenerateSummary(t) == t
  {
    assert Untagged(t);
    UntaggedFixpoint(t);
    NoBreakIsOneSentence(t);
  }

  /** The placeholder itself is a fixpoint of the summariser. */
  lemma PlaceholderIsStable()
    ensures GenerateSummary(Placeholder) == Placeholder
  {
    forall i | 0 <= i < |Placeholder|
      ensures Placeholder[i] != '<'
    {
      if i < 7 {} else if i < 14 {} else {}
    }
    PlainTextIsStable(Placeholder);
  }

  /** A non-empty summary summarises to itself. */
  lemma {:induction false} GenerateSummaryIdempotent(text: string)
    requires GenerateSummary(text) != ""
    ensures GenerateSummary(GenerateSummary(text)) == GenerateSummary(text)
  {
    if text == "" {
      PlaceholderIsStable();
    } else {
      var t := StripTags(text);
      var r := GenerateSummary(text);
      StripTagsUntagged(text);
      UntaggedPrefix(t, |r|);
      assert t[..|r|] == r;
      UntaggedFixpoint(r);
      NoBreakIsOneSentence(r);
    }
  }

  /** Input made only of tags summarises to the empty string, not to the
      placeholder: the split always has a first piece. */
  lemma OnlyTagsGiveEmpty(text: string)
    requires text != ""
    requires StripTags(text) == ""
    ensures GenerateSummary(text) == ""
  {
  }
}

=== FILE: tally.dfy ===
/** `Counter(keywords).items()` and the `zip(*...)` that unpacks it into bar
    labels and bar lengths, in backend/app/trend_analysis.py's
    `/trending_chart` handler. */
module Tally {
  import opened Wrappers

  /** A counted key, as one item of `Counter.items()`. */
  type Item = (string, nat)

  /** How often `k` occurs in `ks`. */
  function Occurrences(ks: seq<string>, k: string): nat {
    if |ks| == 0 then 0
    else Occurrences(ks[..|ks| - 1], k) + (if ks[|ks| - 1] == k then 1 else 0)
  }

  /** The distinct keywords of a list. */
  function Elements(ks: seq<string>): set<string> {
    set i | 0 <= i < |ks| :: ks[i]
  }

  lemma ElementsMembership(ks: seq<string>, x: string)
    ensures x in Elements(ks) <==> x in ks
  {
    if x in ks {
      var m :| 0 <= m < |ks| && ks[m] == x;
    }
  }

  /** Keys of a list of counts. */
  function Keys(items: seq<Item>): set<string> {
    set i | 0 <= i < |items| :: items[i].0
  }

  /** No key appears twice. */
  predicate DistinctKeys(items: seq<Item>) {
    forall i, j :: 0 <= i < j < |items| ==> items[i].0 != items[j].0
  }

  /** Every recorded count is at least one. */
  predicate PositiveCounts(items: seq<Item>) {
    forall i :: 0 <= i < |items| ==> items[i].1 >= 1
  }

  /** Sum of the counts. */
  function Total(items: seq<Item>): nat {
    if |items| == 0 then 0 else items[0].1 + Total(items[1..])
  }

  /** The count recorded for `k`, summed over every item with that key. */
  function CountOf(items: seq<Item>, k: string): nat {
    if |items| == 0 then 0
    else (if items[0].0 == k then items[0].1 else 0) + CountOf(items[1..], k)
  }

  /** `counter[k] += 1`: the count of `k` goes up by one where `k` already
      is, or `k` is appended with count one. Other items keep their place. */
  function Bump(items: seq<Item>, k: string): (r: seq<Item>)
    ensures |r| == |items| || |r| == |items| + 1
    ensures forall i :: 0 <= i < |items| ==> r[i].0 == items[i].0
    ensures |r| == |items| + 1 ==> r[|items|] == (k, 1) && k !in Keys(items)
    ensures Keys(r) == Keys(items) + {k}
  {
    if |items| == 0 then [(k, 1)]
    else if items[0].0 == k then
      KeysCons(items[0], items[1..]);
      KeysCons((k, items[0].1 + 1), items[1..]);
      [(k, items[0].1 + 1)] + items[1..]
    else
      var b := Bump(items[1..], k);
      KeysCons(items[0], items[1..]);
      KeysCons(items[0], b);
      [items[0]] + b
  }

  lemma KeysCons(x: Item, xs: seq<Item>)
    ensures Keys([x] + xs) == {x.0} + Keys(xs)
  {
    var ys := [x] + xs;
    forall k | k in Keys(ys)
      ensures k in {x.0} + Keys(xs)
    {
      var i :| 0 <= i < |ys| && ys[i].0 == k;
      if i > 0 {
        assert xs[i - 1].0 == k;
      }
    }
    forall k | k in Keys(xs)
      ensures k in Keys(ys)
    {
      var i :| 0 <= i < |xs| && xs[i].0 == k;
      assert ys[i + 1].0 == k;
    }
    assert ys[0].0 == x.0;
  }

  lemma {:induction false} BumpCounts(items: seq<Item>, k: string, j: string)
    ensures CountOf(Bump(items, k), j) == CountOf(items, j) + (if j == k then 1 else 0)
    ensures Total(Bump(items, k)) == Total(items) + 1
  {
    if |items| > 0 && items[0].0 != k {
      BumpCounts(items[1..], k, j);
      var r := Bump(items, k);
      assert r[1..] == Bump(items[1..], k);
    } else if |items| > 0 {
      var r := Bump(items, k);
      assert r[1..] == items[1..];
    }
  }

  lemma {:induction false} BumpShape(items: seq<Item>, k: string)
    requires DistinctKeys(items) && PositiveCounts(items)
    ensures DistinctKeys(Bump(items, k)) && PositiveCounts(Bump(items, k))
  {
    if |items| > 0 && items[0].0 != k {
      BumpShape(items[1..], k);
      var r := Bump(items, k);
      var b := Bump(items[1..], k);
      assert r == [items[0]] + b;
      forall j | 0 < j < |r|
        ensures r[j].0 != items[0].0
      {
        assert r[j].0 in Keys(b);
        assert items[0].0 !in Keys(items[1..]);
      }
    }
  }

  /** `Counter(ks).items()`: one item per distinct keyword, in order of first
      occurrence. */
  function Counter(ks: seq<string>): (r: seq<Item>)
    ensures |r| <= |ks|
  {
    if |ks| == 0 then [] else Bump(Counter(ks[..|ks| - 1]), ks[|ks| - 1])
  }

  /** The items have distinct keys and positive counts. */
  lemma {:induction false} CounterShape(ks: seq<string>)
    ensures DistinctKeys(Counter(ks)) && PositiveCounts(Counter(ks))
  {
    if |ks| > 0 {
      CounterShape(ks[..|ks| - 1]);
      BumpShape(Counter(ks[..|ks| - 1]), ks[|ks| - 1]);
    }
  }

  /** The keys are exactly the keywords. */
  lemma {:induction false} CounterKeys(ks: seq<string>)
    ensures Keys(Counter(ks)) == Elements(ks)
  {
    if |ks| > 0 {
      var init := ks[..|ks| - 1];
      CounterKeys(init);
      ElementsSnoc(ks);
    }
  }

  lemma ElementsSnoc(ks: seq<string>)
    requires |ks| > 0
    ensures Elements(ks) == Elements(ks[..|ks| - 1]) + {ks[|ks| - 1]}
  {
    var init := ks[..|ks| - 1];
    forall k | k in Elements(ks)
      ensures k in Elements(init) + {ks[|ks| - 1]}
    {
      var i :| 0 <= i < |ks| && ks[i] == k;
      if i < |init| {
        assert init[i] == k;
      }
    }
    forall k | k in Elements(init)
      ensures k in Elements(ks)
    {
      var i :| 0 <= i < |init| && init[i] == k;
      assert ks[i] == k;
    }
  }

  /** Each keyword is counted as often as it occurs, and the counts add up
      to the number of keywords. */
  lemma {:induction false} CounterCounts(ks: seq<string>, k: string)
    ensures CountOf(Counter(ks), k) == Occurrences(ks, k)
    ensures Total(Counter(ks)) == |ks|
  {
    if |ks| > 0 {
      CounterCounts(ks[..|ks| - 1], k);
      BumpCounts(Counter(ks[..|ks| - 1]), ks[|ks| - 1], k);
    }
  }

  /** With distinct keys, the count of an item's key is the item's count. */
  lemma {:induction false} CountOfDistinct(items: seq<Item>, i: nat)
    requires DistinctKeys(items)
    requires i < |items|
    ensures CountOf(items, items[i].0) == items[i].1
  {
    if i == 0 {
      CountOfAbsent(items[1..], items[0].0);
    } else {
      assert DistinctKeys(items[1..]);
      CountOfDistinct(items[1..], i - 1);
    }
  }

  lemma {:induction false} CountOfAbsent(items: seq<Item>, k: string)
    requires forall i :: 0 <= i < |items| ==> items[i].0 != k
    ensures CountOf(items, k) == 0
  {
    if |items| > 0 {
      CountOfAbsent(items[1..], k);
    }
  }

  /** Every item of the counter records its keyword's number of occurrences. */
  lemma CounterItems(ks: seq<string>)
    ensures forall i :: 0 <= i < |Counter(ks)| ==> Counter(ks)[i].1 == Occurrences(ks, Counter(ks)[i].0)
  {
    CounterShape(ks);
    forall i | 0 <= i < |Counter(ks)|
      ensures Counter(ks)[i].1 == Occurrences(ks, Counter(ks)[i].0)
    {
      CountOfDistinct(Counter(ks), i);
      CounterCounts(ks, Counter(ks)[i].0);
    }
  }

  /** `labels, values = zip(*items)`: the labels and counts in item order;
      fails (`None`) on no items, where Python cannot unpack two values. */
  function Unzip(items: seq<Item>): (r: Option<(seq<string>, seq<nat>)>)
    ensures r.None? <==> |items| == 0
    ensures r.Some? ==> |r.value.0| == |items| && |r.value.1| == |items|
    ensures r.Some? ==> forall i :: 0 <= i < |items| ==> (r.value.0[i], r.value.1[i]) == items[i]
  {
    if |items| == 0 then None
    else Some((seq(|items|, i requires 0 <= i < |items| => items[i].0),
               seq(|items|, i requires 0 <= i < |items| => items[i].1)))
  }

  /** The labels of an unzip are the keys of the items. */
  lemma UnzipLabels(items: seq<Item>)
    requires |items| > 0
    ensures Elements(Unzip(items).value.0) == Keys(items)
  {
    var labels := Unzip(items).value.0;
    forall k | k in Elements(labels)
      ensures k in Keys(items)
    {
      var i :| 0 <= i < |labels| && labels[i] == k;
      assert items[i].0 == k;
    }
    forall k | k in Keys(items)
      ensures k in Elements(labels)
    {
      var i :| 0 <= i < |items| && items[i].0 == k;
      assert labels[i] == k;
    }
  }

  /** The count is empty exactly when there are no keywords. */
  lemma CounterEmpty(ks: seq<string>)
    ensures |Counter(ks)| == 0 <==> |ks| == 0
  {
    if |ks| > 0 {
      CounterKeys(ks);
      assert ks[0] in Keys(Counter(ks));
    }
  }

  /** Position of the first occurrence of `k` in `ks`. */
  function FirstIndex(ks: seq<string>, k: string): (i: nat)
    requires k in ks
    ensures i < |ks| && ks[i] == k
    ensures forall j :: 0 <= j < i ==> ks[j] != k
  {
    if ks[0] == k then 0 else 1 + FirstIndex(ks[1..], k)
  }

  lemma InAppend(ks: seq<string>, x: string, k: string)
    requires k in ks
    ensures k in ks + [x]
  {
    var i :| 0 <= i < |ks| && ks[i] == k;
    assert (ks + [x])[i] == k;
  }

  /** Appending keeps the first occurrence of a keyword already present. */
  lemma FirstIndexAppend(ks: seq<string>, x: string, k: string)
    requires k in ks
    ensures k in ks + [x] && FirstIndex(ks + [x], k) == FirstIndex(ks, k)
  {
    var i := FirstIndex(ks, k);
    var j := FirstIndex(ks + [x], k);
    assert (ks + [x])[i] == k;
  }

  /** Every key occurs in `ks`, and keys come in the order of their first
      occurrence in `ks`. */
  predicate FirstOccurrenceOrder(items: seq<Item>, ks: seq<string>) {
    && (forall i :: 0 <= i < |items| ==> items[i].0 in ks)
    && (forall i, j :: 0 <= i < j < |items| && items[i].0 in ks && items[j].0 in ks ==>
          FirstIndex(ks, items[i].0) < FirstIndex(ks, items[j].0))
  }

  /** Counting one more keyword keeps the first-occurrence order. */
  lemma BumpOrder(items: seq<Item>, ks: seq<string>, x: string)
    requires FirstOccurrenceOrder(items, ks)
    requires Keys(items) == Elements(ks)
    ensures FirstOccurrenceOrder(Bump(items, x), ks + [x])
  {
    BumpKeysOccur(items, ks, x);
    BumpPairsOrdered(items, ks, x);
  }

  lemma BumpKeysOccur(items: seq<Item>, ks: seq<string>, x: string)
    requires forall i :: 0 <= i < |items| ==> items[i].0 in ks
    ensures forall i :: 0 <= i < |Bump(items, x)| ==> Bump(items, x)[i].0 in ks + [x]
  {
    var ks' := ks + [x];
    var r := Bump(items, x);
    forall i | 0 <= i < |r|
      ensures r[i].0 in ks'
    {
      if i < |items| {
        assert r[i].0 == items[i].0;
        InAppend(ks, x, items[i].0);
      } else {
        assert ks'[|ks|] == x;
      }
    }
  }

  lemma BumpPairsOrdered(items: seq<Item>, ks: seq<string>, x: string)
    requires FirstOccurrenceOrder(items, ks)
    requires Keys(items) == Elements(ks)
    ensures forall i, j :: 0 <= i < j < |Bump(items, x)| && Bump(items, x)[i].0 in ks + [x] && Bump(items, x)[j].0 in ks + [x] ==>
      FirstIndex(ks + [x], Bump(items, x)[i].0) < FirstIndex(ks + [x], Bump(items, x)[j].0)
  {
    var r := Bump(items, x);
    forall i, j | 0 <= i < j < |r| && r[i].0 in ks + [x] && r[j].0 in ks + [x]
      ensures FirstIndex(ks + [x], r[i].0) < FirstIndex(ks + [x], r[j].0)
    {
      BumpPair(items, ks, x, i, j);
    }
  }

  lemma BumpPair(items: seq<Item>, ks: seq<string>, x: string, i: nat, j: nat)
    requires FirstOccurrenceOrder(items, ks)
    requires Keys(items) == Elements(ks)
    requires i < j < |Bump(items, x)|
    ensures Bump(items, x)[i].0 in ks + [x] && Bump(items, x)[j].0 in ks + [x]
    ensures FirstIndex(ks + [x], Bump(items, x)[i].0) < FirstIndex(ks + [x], Bump(items, x)[j].0)
  {
    var r := Bump(items, x);
    assert r[i].0 == items[i].0;
    if j < |items| {
      assert r[j].0 == items[j].0;
      PairOfOld(items, ks, x, i, j);
    } else {
      assert r[j].0 == x;
      PairWithNew(items, ks, x, i);
    }
  }

  lemma PairOfOld(items: seq<Item>, ks: seq<string>, x: string, i: nat, j: nat)
    requires FirstOccurrenceOrder(items, ks)
    requires i < j < |items|
    ensures items[i].0 in ks + [x] && items[j].0 in ks + [x]
    ensures FirstIndex(ks + [x], items[i].0) < FirstIndex(ks + [x], items[j].0)
  {
    FirstIndexAppend(ks, x, items[i].0);
    FirstIndexAppend(ks, x, items[j].0);
  }

  lemma PairWithNew(items: seq<Item>, ks: seq<string>, x: string, i: nat)
    requires FirstOccurrenceOrder(items, ks)
    requires Keys(items) == Elements(ks)
    requires |Bump(items, x)| == |items| + 1
    requires i < |items|
    ensures items[i].0 in ks + [x] && x in ks + [x]
    ensures FirstIndex(ks + [x], items[i].0) < FirstIndex(ks + [x], x)
  {
    var ks' := ks + [x];
    FirstIndexAppend(ks, x, items[i].0);
    ElementsMembership(ks, x);
    assert ks'[|ks|] == x;
    assert FirstIndex(ks', x) == |ks|;
  }

  /** The items follow the order in which their keywords first occur. */
  lemma {:induction false} CounterOrder(ks: seq<string>)
    ensures FirstOccurrenceOrder(Counter(ks), ks)
  {
    if |ks| > 0 {
      var init := ks[..|ks| - 1];
      assert ks == init + [ks[|ks| - 1]];
      CounterOrder(init);
      CounterKeys(init);
      BumpOrder(Counter(init), init, ks[|ks| - 1]);
    }
  }

  /** The bars of the chart: one per distinct keyword, in order of first
      occurrence, each as long as the keyword's number of occurrences; the
      bars add up to the number of keywords. */
  lemma ChartBars(keywords: seq<string>, labels: seq<string>, values: seq<nat>)
    requires Unzip(Counter(keywords)) == Some((labels, values))
    ensures |labels| == |values| > 0
    ensures forall i, j :: 0 <= i < j < |labels| ==> labels[i] != labels[j]
    ensures forall i :: 0 <= i < |labels| ==> values[i] == Occurrences(keywords, labels[i])
    ensures Elements(labels) == Elements(keywords)
    ensures forall i :: 0 <= i < |labels| ==> labels[i] in keywords
    ensures forall i, j :: 0 <= i < j < |labels| ==> FirstIndex(keywords, labels[i]) < FirstIndex(keywords, labels[j])
  {
    var items := Counter(keywords);
    BarsDistinct(keywords, labels, values);
    BarsLengths(keywords, labels, values);
    CounterKeys(keywords);
    UnzipLabels(items);
    CounterOrder(keywords);
    forall i | 0 <= i < |labels|
      ensures labels[i] in keywords
    {
      assert labels[i] == items[i].0;
    }
    forall i, j | 0 <= i < j < |labels|
      ensures FirstIndex(keywords, labels[i]) < FirstIndex(keywords, labels[j])
    {
      assert labels[i] == items[i].0 && labels[j] == items[j].0;
    }
  }

  lemma BarsDistinct(keywords: seq<string>, labels: seq<string>, values: seq<nat>)
    requires Unzip(Counter(keywords)) == Some((labels, values))
    ensures forall i, j :: 0 <= i < j < |labels| ==> labels[i] != labels[j]
  {
    var items := Counter(keywords);
    CounterShape(keywords);
    forall i, j | 0 <= i < j < |labels|
      ensures labels[i] != labels[j]
    {
      assert labels[i] == items[i].0 && labels[j] == items[j].0;
    }
  }

  lemma BarsLengths(keywords: seq<string>, labels: seq<string>, values: seq<nat>)
    requires Unzip(Counter(keywords)) == Some((labels, values))
    ensures forall i :: 0 <= i < |labels| ==> values[i] == Occurrences(keywords, labels[i])
  {
    var items := Counter(keywords);
    CounterItems(keywords);
    forall i | 0 <= i < |labels|
      ensures values[i] == Occurrences(keywords, labels[i])
    {
      assert (labels[i], values[i]) == items[i];
    }
  }
}

=== FILE: trends.dfy ===
/** The handlers of backend/app/trend_analysis.py: `/fetch_trends` with
    keywords, summaries and a word cloud, `/trend_analysis` and
    `/trending_chart`. The keyword extractor and the image renderers are
    libraries and appear as parameters. */
module Trends {
  import opened Wrappers
  import opened Strings
  import opened Feeds
  import opened Summary
  import opened Base64
  import opened Tally
  import Endpoints

  /** The keyword extractor, left uninterpreted: text and the number of
      keywords wanted, to the ranked keywords, or the text of the exception
      it raised. */
  type Extractor = (string, nat) -> Result<seq<string>, string>

  /** The word-cloud renderer, left uninterpreted: the space-joined keywords
      to PNG bytes, or the text of the exception it raised. */
  type CloudRenderer = string -> Result<seq<Byte>, string>

  /** The bar-chart renderer, left uninterpreted: labels and bar lengths to
      PNG bytes, or the text of the exception it raised. */
  type ChartRenderer = (seq<string>, seq<nat>) -> Result<seq<Byte>, string>

  /** The article of this file's response model: main.py's fields plus a
      one-line summary. */
  datatype Article = Article(title: string, link: string, published: string, source: string, summary: string)

  datatype NewsResponse = NewsResponse(
    feedTitle: string,
    articles: seq<Article>,
    keywords: seq<string>,
    wordcloud: Option<string>)

  /** The body of `/trend_analysis`. */
  datatype Analysis = Analysis(message: string, keywords: seq<string>, wordcloud: string)

  const DefaultCountry: string := "WORLD"
  const KeywordsPerFeed: nat := 10
  const KeywordsPerAnalysis: nat := 15
  const ChartKeywords: nat := 10
  const FetchError: string := "Error fetching news: "
  const AnalysisError: string := "Error generating trend analysis: "
  const ChartError: string := "Error generating trending chart"

  /** The text the keywords are extracted from: each entry's title, a
      space and its summary (empty when it has none), the entries joined
      with a space. */
  function EntryText(e: Entry): string {
    e.title + " " + e.summary.GetOr("")
  }

  function AggregateText(entries: seq<Entry>): (r: string)
    ensures |entries| == 1 ==> r == EntryText(entries[0])
  {
    Join(" ", seq(|entries|, i requires 0 <= i < |entries| => EntryText(entries[i])))
  }

  /** The keyword text grows entry by entry: one more entry adds a space
      and that entry's text. */
  lemma AggregateTextSnoc(entries: seq<Entry>, e: Entry)
    requires |entries| > 0
    ensures AggregateText(entries + [e]) == AggregateText(entries) + " " + EntryText(e)
  {
    var texts := seq(|entries|, i requires 0 <= i < |entries| => EntryText(entries[i]));
    var all := entries + [e];
    assert seq(|all|, i requires 0 <= i < |all| => EntryText(all[i])) == texts + [EntryText(e)];
    JoinSnoc(" ", texts, EntryText(e));
  }

  /** `entry.get("summary", entry["title"])`: the summary whenever the
      entry has one, even an empty one; the title otherwise. */
  function SummaryInput(e: Entry): (r: string)
    ensures e.summary.Some? ==> r == e.summary.value
    ensures e.summary.None? ==> r == e.title
  {
    e.summary.GetOr(e.title)
  }

  /** An article copies the entry's fields and carries the summary of its
      summary input. */
  function ToArticle(e: Entry): (r: Article)
    ensures r.title == e.title && r.link == e.link && r.published == e.published && r.source == e.sourceTitle
    ensures e.summary == Some("") ==> r.summary == Placeholder
    ensures SummaryInput(e) != "" ==> r.summary <= StripTags(SummaryInput(e))
  {
    Article(e.title, e.link, e.published, e.sourceTitle, GenerateSummary(SummaryInput(e)))
  }

  /** generate_wordcloud: the rendered image of the space-joined keywords
      as a PNG data URL. */
  function Wordcloud(keywords: seq<string>, render: CloudRenderer): (r: Result<string, string>)
    ensures r.Ok? <==> render(Join(" ", keywords)).Ok?
    ensures r.Ok? ==> ParsePngDataUrl(r.value) == Some(render(Join(" ", keywords)).value)
  {
    match render(Join(" ", keywords))
    case Ok(png) =>
      PngDataUrlRoundTrip(png);
      Ok(PngDataUrl(png))
    case Err(e) => Err(e)
  }

  /** The response built from a fetched feed, or the failure of the
      keyword extraction or of the word cloud. */
  function Analyse(feed: Feed, limit: int, extract: Extractor, render: CloudRenderer): (r: Result<NewsResponse, string>)
    ensures var found := extract(AggregateText(Take(feed.entries, limit)), KeywordsPerFeed);
      && (r.Ok? <==> found.Ok? && render(Join(" ", found.value)).Ok?)
      && (found.Err? ==> r == Err(found.error))
      && (found.Ok? && render(Join(" ", found.value)).Err? ==> r == Err(render(Join(" ", found.value)).error))
    ensures r.Ok? ==> r.value.feedTitle == feed.title
    ensures r.Ok? ==> |r.value.articles| == |Take(feed.entries, limit)|
    ensures r.Ok? ==> forall i :: 0 <= i < |r.value.articles| ==> r.value.articles[i] == ToArticle(feed.entries[i])
    ensures r.Ok? ==> r.value.wordcloud.Some? && PngDataPrefix <= r.value.wordcloud.value
  {
    var entries := Take(feed.entries, limit);
    match extract(AggregateText(entries), KeywordsPerFeed)
    case Err(e) => Err(e)
    case Ok(keywords) =>
      match Wordcloud(keywords, render)
      case Err(e) => Err(e)
      case Ok(img) =>
        Ok(NewsResponse(
          feed.title,
          seq(|entries|, i requires 0 <= i < |entries| => ToArticle(entries[i])),
          keywords,
          Some(img)))
  }

  /** `/fetch_trends?lang&country&limit` of trend_analysis.py: the language
      defaults to "en", the country to "WORLD", only the limit is checked. */
  function FetchTrends(lang: Option<string>, country: Option<string>, limit: Option<int>,
                       fetch: Fetcher, extract: Extractor, render: CloudRenderer): (r: Response<NewsResponse>)
    ensures r.Unprocessable? <==> !Endpoints.LimitAccepted(limit)
    ensures r.Unprocessable? ==> r.errors == [BadLimit]
    ensures r.ServerError? ==> r.status == 500 && FetchError <= r.detail
    ensures r.Reply? ==> r.body.wordcloud.Some? && PngDataPrefix <= r.body.wordcloud.value
    ensures var got := fetch(Plan(lang, country).0, Plan(lang, country).1);
      Endpoints.LimitAccepted(limit) && got.Err? ==> r == ServerError(500, FetchError + got.error)
    ensures var got := fetch(Plan(lang, country).0, Plan(lang, country).1);
      Endpoints.LimitAccepted(limit) && got.Ok? ==>
        var body := Analyse(got.value, limit.GetOr(Endpoints.DefaultLimit), extract, render);
        && (r.ServerError? <==> body.Err?)
        && (body.Err? ==> r == ServerError(500, FetchError + body.error))
  {
    if !Endpoints.LimitAccepted(limit) then Unprocessable([BadLimit])
    else
      var (client, request) := Plan(lang, country);
      match fetch(client, request)
      case Err(e) => ServerError(500, FetchError + e)
      case Ok(feed) =>
        match Analyse(feed, limit.GetOr(Endpoints.DefaultLimit), extract, render)
        case Err(e) => ServerError(500, FetchError + e)
        case Ok(body) => Reply(body)
  }

  /** The titles of all entries, joined with a space. */
  function TitleText(entries: seq<Entry>): (r: string)
    ensures |entries| == 0 ==> r == ""
    ensures |entries| == 1 ==> r == entries[0].title
  {
    Join(" ", seq(|entries|, i requires 0 <= i < |entries| => entries[i].title))
  }

  /** The title text grows entry by entry: one more entry adds a space and
      that entry's title. */
  lemma TitleTextSnoc(entries: seq<Entry>, e: Entry)
    requires |entries| > 0
    ensures TitleText(entries + [e]) == TitleText(entries) + " " + e.title
  {
    var titles := seq(|entries|, i requires 0 <= i < |entries| => entries[i].title);
    var all := entries + [e];
    assert seq(|all|, i requires 0 <= i < |all| => all[i].title) == titles + [e.title];
    JoinSnoc(" ", titles, e.title);
  }

  /** The client both `/trend_analysis` and `/trending_chart` use. */
  const UsClient: Client := Client("en", Some("US"))

  /** `/trend_analysis`: keywords of the US top-news titles and their word
      cloud. */
  function TrendAnalysis(fetch: Fetcher, extract: Extractor, render: CloudRenderer): (r: Response<Analysis>)
    ensures !r.Unprocessable?
    ensures r.ServerError? ==> r.status == 500 && AnalysisError <= r.detail
    ensures r.Reply? ==> r.body.message == "Current trending topics analysis" && PngDataPrefix <= r.body.wordcloud
    ensures var got := fetch(UsClient, TopNews);
      && (got.Err? ==> r == ServerError(500, AnalysisError + got.error))
      && (got.Ok? ==>
            var found := extract(TitleText(got.value.entries), KeywordsPerAnalysis);
            && (found.Err? ==> r == ServerError(500, AnalysisError + found.error))
            && (found.Ok? && render(Join(" ", found.value)).Err? ==>
                  r == ServerError(500, AnalysisError + render(Join(" ", found.value)).error))
            && (r.Reply? ==>
                  && found.Ok?
                  && r.body.keywords == found.value
                  && ParsePngDataUrl(r.body.wordcloud) == Some(render(Join(" ", found.value)).value)))
  {
    match fetch(UsClient, TopNews)
    case Err(e) => ServerError(500, AnalysisError + e)
    case Ok(feed) =>
      match extract(TitleText(feed.entries), KeywordsPerAnalysis)
      case Err(e) => ServerError(500, AnalysisError + e)
      case Ok(keywords) =>
        match Wordcloud(keywords, render)
        case Err(e) => ServerError(500, AnalysisError + e)
        case Ok(img) => Reply(Analysis("Current trending topics analysis", keywords, img))
  }

  /** `/trending_chart`: the PNG bar chart of the keyword counts of the US
      top-news titles. Every failure, including no keywords at all, gives
      the same fixed detail. */
  function TrendingChart(fetch: Fetcher, extract: Extractor, chart: ChartRenderer): (r: Response<seq<Byte>>)
    ensures !r.Unprocessable?
    ensures r.ServerError? ==> r == ServerError(500, ChartError)
    ensures fetch(UsClient, TopNews).Err? ==> r == ServerError(500, ChartError)
    ensures var got := fetch(UsClient, TopNews);
      got.Ok? && extract(TitleText(got.value.entries), ChartKeywords).Err? ==> r == ServerError(500, ChartError)
  {
    match fetch(UsClient, TopNews)
    case Err(_) => ServerError(500, ChartError)
    case Ok(feed) =>
      match extract(TitleText(feed.entries), ChartKeywords)
      case Err(_) => ServerError(500, ChartError)
      case Ok(keywords) =>
        match Unzip(Counter(keywords))
        case None => ServerError(500, ChartError)
        case Some((labels, values)) =>
          match chart(labels, values)
          case Err(_) => ServerError(500, ChartError)
          case Ok(png) => Reply(png)
  }

  /** A successful analysis answers with the fixed message, the keywords
      extracted from the titles, and the data URL of their rendered cloud. */
  lemma TrendAnalysisSucceeds(fetch: Fetcher, extract: Extractor, render: CloudRenderer,
                              feed: Feed, keywords: seq<string>, png: seq<Byte>)
    requires fetch(UsClient, TopNews) == Ok(feed)
    requires extract(TitleText(feed.entries), KeywordsPerAnalysis) == Ok(keywords)
    requires render(Join(" ", keywords)) == Ok(png)
    ensures TrendAnalysis(fetch, extract, render)
         == Reply(Analysis("Current trending topics analysis", keywords, PngDataUrl(png)))
  {
  }

  /** The client and listing `/fetch_trends` asks for. */
  function Plan(lang: Option<string>, country: Option<string>): (r: (Client, Request))
    ensures r.0.lang == DefaultLang(lang) && r.0.lang != ""
    ensures r.0.country == Some(country.GetOr(DefaultCountry))
    ensures r.1 == TopicHeadlines(World) || r.1 == TopNews
    ensures r.1.TopicHeadlines? <==> IsWorld(r.0.country)
  {
    var c := Some(country.GetOr(DefaultCountry));
    (Client(DefaultLang(lang), EffectiveCountry(c)), Route(c))
  }

  /** Without a country the handler asks for the world headlines, and it
      configures the client with "WORLD". */
  lemma MissingCountryMeansWorld(lang: Option<string>)
    ensures Plan(lang, None) == (Client(DefaultLang(lang), Some("WORLD")), TopicHeadlines("WORLD"))
  {
    assert Upper(DefaultCountry) == DefaultCountry;
  }

  /** A successful request returns the feed's title, one article per entry
      up to the limit in feed order with its fields copied and the summary
      of its summary input, the keywords of exactly those entries' text,
      and the data URL of the rendered cloud. */
  lemma FetchTrendsSucceeds(lang: Option<string>, country: Option<string>, limit: Option<int>,
                            fetch: Fetcher, extract: Extractor, render: CloudRenderer,
                            feed: Feed, keywords: seq<string>, png: seq<Byte>)
    requires Endpoints.LimitAccepted(limit)
    requires fetch(Plan(lang, country).0, Plan(lang, country).1) == Ok(feed)
    requires var n := limit.GetOr(Endpoints.DefaultLimit);
      extract(AggregateText(Take(feed.entries, n)), KeywordsPerFeed) == Ok(keywords)
    requires render(Join(" ", keywords)) == Ok(png)
    ensures var r := FetchTrends(lang, country, limit, fetch, extract, render);
      var n := limit.GetOr(Endpoints.DefaultLimit);
      && r.Reply?
      && r.body.feedTitle == feed.title
      && |r.body.articles| == (if n < |feed.entries| then n else |feed.entries|)
      && (forall i :: 0 <= i < |r.body.articles| ==>
            var e := feed.entries[i];
            r.body.articles[i] == Article(e.title, e.link, e.published, e.sourceTitle, GenerateSummary(SummaryInput(e))))
      && r.body.keywords == keywords
      && r.body.wordcloud == Some(PngDataUrl(png))
  {
  }

  /** A failed fetch yields one status-500 error with the failure's text. */
  lemma FetchTrendsFetchFails(lang: Option<string>, country: Option<string>, limit: Option<int>,
                              fetch: Fetcher, extract: Extractor, render: CloudRenderer, e: string)
    requires Endpoints.LimitAccepted(limit)
    requires fetch(Plan(lang, country).0, Plan(lang, country).1) == Err(e)
    ensures FetchTrends(lang, country, limit, fetch, extract, render) == ServerError(500, FetchError + e)
  {
  }

  /** A failing keyword extraction yields the same status-500 error, with
      the extractor's failure text. */
  lemma FetchTrendsExtractionFails(lang: Option<string>, country: Option<string>, limit: Option<int>,
                                   fetch: Fetcher, extract: Extractor, render: CloudRenderer,
                                   feed: Feed, e: string)
    requires Endpoints.LimitAccepted(limit)
    requires fetch(Plan(lang, country).0, Plan(lang, country).1) == Ok(feed)
    requires var n := limit.GetOr(Endpoints.DefaultLimit);
      extract(AggregateText(Take(feed.entries, n)), KeywordsPerFeed) == Err(e)
    ensures FetchTrends(lang, country, limit, fetch, extract, render) == ServerError(500, FetchError + e)
  {
  }

  /** A failing word-cloud render yields the same status-500 error, with
      the renderer's failure text; no reply without an image is given. */
  lemma FetchTrendsRenderFails(lang: Option<string>, country: Option<string>, limit: Option<int>,
                               fetch: Fetcher, extract: Extractor, render: CloudRenderer,
                               feed: Feed, keywords: seq<string>, e: string)
    requires Endpoints.LimitAccepted(limit)
    requires fetch(Plan(lang, country).0, Plan(lang, country).1) == Ok(feed)
    requires var n := limit.GetOr(Endpoints.DefaultLimit);
      extract(AggregateText(Take(feed.entries, n)), KeywordsPerFeed) == Ok(keywords)
    requires render(Join(" ", keywords)) == Err(e)
    ensures FetchTrends(lang, country, limit, fetch, extract, render) == ServerError(500, FetchError + e)
  {
  }

  /** Entries past the limit have no influence on the response: two feeds
      that share the title and the first `limit` entries give the same
      answer. */
  lemma EntriesPastLimitIgnored(lang: Option<string>, country: Option<string>, limit: Option<int>,
                                fetch1: Fetcher, fetch2: Fetcher, extract: Extractor, render: CloudRenderer,
                                feed1: Feed, feed2: Feed)
    requires Endpoints.LimitAccepted(limit)
    requires fetch1(Plan(lang, country).0, Plan(lang, country).1) == Ok(feed1)
    requires fetch2(Plan(lang, country).0, Plan(lang, country).1) == Ok(feed2)
    requires feed1.title == feed2.title
    requires var n := limit.GetOr(Endpoints.DefaultLimit);
      Take(feed1.entries, n) == Take(feed2.entries, n)
    ensures FetchTrends(lang, country, limit, fetch1, extract, render)
         == FetchTrends(lang, country, limit, fetch2, extract, render)
  {
  }

  /** An entry with an empty summary gets the placeholder, not its title. */
  lemma EmptySummaryGivesPlaceholder(e: Entry)
    requires e.summary == Some("")
    ensures ToArticle(e).summary == Placeholder
  {
  }

  /** With no summary, the article summarises the title. */
  lemma MissingSummaryUsesTitle(e: Entry)
    requires e.summary.None?
    ensures ToArticle(e).summary == GenerateSummary(e.title)
  {
  }

  /** The chart fails exactly when the extractor found no keyword, provided
      the feed, the extractor and the renderer succeed. */
  lemma ChartFailsOnlyWithoutKeywords(fetch: Fetcher, extract: Extractor, chart: ChartRenderer,
                                      feed: Feed, keywords: seq<string>)
    requires fetch(UsClient, TopNews) == Ok(feed)
    requires extract(TitleText(feed.entries), ChartKeywords) == Ok(keywords)
    requires forall ls, vs :: chart(ls, vs).Ok?
    ensures TrendingChart(fetch, extract, chart).ServerError? <==> keywords == []
  {
    CounterEmpty(keywords);
  }

  /** A chart that is drawn shows one bar per distinct keyword, in order of
      first occurrence, each as long as its keyword's number of occurrences. */
  lemma ChartShowsCounts(fetch: Fetcher, extract: Extractor, chart: ChartRenderer, feed: Feed)
    requires fetch(UsClient, TopNews) == Ok(feed)
    requires TrendingChart(fetch, extract, chart).Reply?
    ensures extract(TitleText(feed.entries), ChartKeywords).Ok?
    ensures var ks := extract(TitleText(feed.entries), ChartKeywords).value;
      && Unzip(Counter(ks)).Some?
      && var (labels, values) := Unzip(Counter(ks)).value;
      && chart(labels, values) == Ok(TrendingChart(fetch, extract, chart).body)
      && |labels| == |values| > 0
      && Elements(labels) == Elements(ks)
      && (forall i, j :: 0 <= i < j < |labels| ==> labels[i] != labels[j])
      && (forall i :: 0 <= i < |labels| ==> labels[i] in ks)
      && (forall i, j :: 0 <= i < j < |labels| ==> FirstIndex(ks, labels[i]) < FirstIndex(ks, labels[j]))
      && (forall i :: 0 <= i < |labels| ==> values[i] == Occurrences(ks, labels[i]))
  {
    var ks := extract(TitleText(feed.entries), ChartKeywords).value;
    CounterEmpty(ks);
    var (labels, values) := Unzip(Counter(ks)).value;
    ChartBars(ks, labels, values);
  }
}

=== FILE: wrappers.dfy ===
/** Failure-carrying values shared by the whole model. */
module Wrappers {

  /** An optional value: Python's `None` or a present value. */
  datatype Option<+T> = None | Some(value: T) {
    /** The held value, or `default` when there is none. */
    function GetOr(default: T): T {
      match this
      case Some(v) => v
      case None => default
    }
  }

  /** Either a value or an error description. */
  datatype Result<+T, +E> = Ok(value: T) | Err(error: E)
}
